=== FILE: README.md ===
# Style transformer and component dependency classifier, in Dafny

This project models two pure-logic pieces of the rax-scripts build loaders.

**The stylesheet transformer** (`stylesheet-loader`) turns one parsed CSS rule into a style object. It works in stages:

- it sanitises selectors: bare tag selectors get the `@` marker, and invalid selectors are reported and dropped;
- it converts kebab-case properties to camel case, upper-casing the first letter after a vendor prefix;
- it coerces values: a `var(--…)` reference passes through, numeric text becomes a number, and colour properties are normalised;
- in theme mode, it rewrites `var(--…)` references into the camel-cased custom property;
- it expands or deletes properties through the "particular" table, applying declarations in order.

**The component loader** (`jsx2mp-loader`) handles one compiled mini-program component:

- it rewrites the `usingComponents` entries of the component's config;
- it derives the output paths of the component's artifacts;
- it classifies every imported name into dependency records, routed to the component loader, the script loader or no loader;
- it renders those records as webpack inline-loader `import` lines under a header comment;
- it rethrows a compiler failure.

The modules follow the program's structure:

| file | module | what it holds |
|---|---|---|
| `wrappers.dfy` | `Wrappers` | `Option` and `Result` |
| `text.dfy` | `Text` | JavaScript character classes; filtering; decimal rendering; `join("\n")` and `split("\n")` |
| `selector.dfy` | `Selector` | `sanitizeSelector` |
| `declarations.dfy` | `Declarations` | `QUOTES_REG`, `VAR_REGEX` and `COLOR_PROPERTIES`; `convertProp`, `convertValue` and `convertCSSVariableValue` |
| `transformer.dfy` | `Transformer` | `convert` and the declaration loop |
| `json.dfy` | `Json` | JSON values, for configs and loader options |
| `paths.dfy` | `Paths` | output paths and the `usingComponents` rewrite |
| `dependencies.dfy` | `Dependencies` | `isCustomComponent` and the classification loop |
| `codegen.dfy` | `CodeGen` | `generateDependencies` and `createImportStatement` |
| `loader.dfy` | `Loader` | one run of the component loader |

Some helpers are imported by the code but not shown:

- `camelcase`, `normalizeColor`, `Number()` and the `particular` table;
- Node's `path` functions and the `pathHelper` functions;
- `JSON.stringify`, and `String(e)` of what the compiler throws.

Each is a field of function type in a record: `Declarations.Helpers`, `Paths.PathOps`, `CodeGen.Emitter` or `Loader.Invocation`. Every property below holds for every choice of those functions. `Number()` is a predicate `isNumeric` (not NaN) and an opaque `toNumber`.

Four behaviours of the code shape the model:

- **`convertValue`.** It tests for `var(--…)` first. Then it coerces numeric text to a number, and a colour property then overrides the coerced value with `normalizeColor(value)`. So numeric text under `color` is not a number.
- **Theme rewrite.** In theme mode, `var(--brand-color)` is stored as `var(brandColor)`, not `brandColor`. `convertCSSVariableValue` removes only the first `--` and keeps the `var(` … `)` wrapper.
- **`convertProp` is not idempotent.** The capitalisation step looks at the raw input.
- **Classification.** It consults `transformed.usingComponents`, not the rewritten `config.usingComponents`.

## Model

| member | source | states |
|---|---|---|
| `Selector.WithTagMarker` | packages/stylesheet-loader/src/transformer.js:26-28 | the marked selector never starts with a letter; a selector starting with an ASCII letter gains one leading `@`, and dropping it gives the selector back; any other selector is unchanged |
| `Selector.TagMarkerIdempotent` | packages/stylesheet-loader/src/transformer.js:26-28 | marking an already marked selector changes nothing |
| `Selector.Canonical` | packages/stylesheet-loader/src/transformer.js:37 | the result has no white space and no dot, each of its characters is one of the input's or `_`, and it is never longer than the input |
| `Selector.CanonicalSingle` | packages/stylesheet-loader/src/transformer.js:37 | a single dot is deleted, a single white-space character becomes `_`, and any other character is kept |
| `Selector.CanonicalAppend` | packages/stylesheet-loader/src/transformer.js:37 | canonicalising distributes over concatenation, so each character is replaced or deleted in place and the rest keeps its order |
| `Selector.SanitizeSelector` | packages/stylesheet-loader/src/transformer.js:24-38 | the result is null iff `log` is on, `transformDescendantCombinator` is off and the marked selector fails `^[.\|@#][A-Za-z0-9_:-]+$`; exactly one message is appended then; otherwise the sink is unchanged and the result is the marked selector with white space made `_` and dots deleted |
| `Selector.InvalidSelectorMessage` | packages/stylesheet-loader/src/transformer.js:31 | the message starts with the rule's line and column |
| `Selector.AcceptedSelectorShape` | packages/stylesheet-loader/src/transformer.js:37 | an accepted selector contains no white space and no dot |
| `Selector.CanonicalKeepsCanonical` | packages/stylesheet-loader/src/transformer.js:37 | a selector without white space or dots passes through the two replacements unchanged |
| `Selector.CanonicalIdempotent` | packages/stylesheet-loader/src/transformer.js:37 | sanitising the sanitised text again changes nothing |
| `Selector.SimpleSelectorCanonical` | packages/stylesheet-loader/src/transformer.js:30-37 | a selector that passes validation loses only a leading class dot |
| `Selector.TagSelectorExample` | packages/stylesheet-loader/src/transformer.js:26-37 | `Div` gives `@Div` and records nothing |
| `Selector.ClassSelectorExample` | packages/stylesheet-loader/src/transformer.js:30-37 | `.my_class` gives `my_class` and records nothing |
| `Selector.InvalidSelectorExample` | packages/stylesheet-loader/src/transformer.js:30-35 | `1abc` gives null and exactly one message, which starts with its line |
| `Text.DecimalRoundTrip` | packages/stylesheet-loader/src/transformer.js:31 | the rendered line or column number reads back as that number |
| `Text.DecimalInjective` | packages/stylesheet-loader/src/transformer.js:31 | different positions render differently |
| `Declarations.StripQuotes` | packages/stylesheet-loader/src/transformer.js:10 | a character survives iff it is none of `\`, `'`, `\|` and `"`; each surviving character occurs as often as in the input; text without them is unchanged |
| `Text.WithoutAppend` | packages/stylesheet-loader/src/transformer.js:94 | deleting characters distributes over concatenation, so every surviving character stays in its place and order |
| `Text.WithoutSingle` | packages/stylesheet-loader/src/transformer.js:94 | one character is deleted iff it is in the deleted class |
| `Declarations.BrandColorIsVarReference` | packages/stylesheet-loader/src/transformer.js:11 | `var(--brand-color)` matches the reference pattern |
| `Declarations.CapitalizeFirst` | packages/stylesheet-loader/src/transformer.js:47-51 | the first character is upper-cased (only `a`-`z` change) and the rest is unchanged |
| `Declarations.ConvertProp` | packages/stylesheet-loader/src/transformer.js:40-54 | the result is `camelCase(p)`, except that after a `-\w` prefix its first character is upper-cased; no other character changes |
| `Declarations.ConvertPropNotIdempotent` | packages/stylesheet-loader/src/transformer.js:44-51 | with `camelCase` answering `webkitX` for both `-webkit-x` and `WebkitX`, a second conversion gives `webkitX` where the first gave `WebkitX` |
| `Declarations.ConvertValue` | packages/stylesheet-loader/src/transformer.js:56-74 | a `var(--…)` reference is returned unchanged, even for colour properties; otherwise a colour property gets `normalizeColor(value)`; otherwise numeric text becomes `Number(value)` and anything else is unchanged |
| `Declarations.ConvertValueKinds` | packages/stylesheet-loader/src/transformer.js:56-74 | the result is a number iff the value is numeric, not a reference and not under a colour property; a string result is the value or its normalised colour |
| `Declarations.RemoveFirstDoubleDash` | packages/stylesheet-loader/src/transformer.js:77 | the text loses two characters exactly when it contains `--`, and otherwise keeps its length |
| `Declarations.RemoveFirstDoubleDashAt` | packages/stylesheet-loader/src/transformer.js:77 | only the first `--` is removed |
| `Declarations.RemoveFirstDoubleDashAbsent` | packages/stylesheet-loader/src/transformer.js:77 | text without `--` is unchanged |
| `Declarations.CamelizeLeavesNoDashBeforeLower` | packages/stylesheet-loader/src/transformer.js:77-79 | after the global `-(\w)` replacement, no dash is followed by a lower-case letter |
| `Declarations.CamelizeAppend` | packages/stylesheet-loader/src/transformer.js:77-79 | the replacement splits over a concatenation wherever a dash cannot pair with the next character |
| `Declarations.CamelizeDashFree` | packages/stylesheet-loader/src/transformer.js:77-79 | text without a dash is unchanged |
| `Declarations.CamelizeChangesIffMatch` | packages/stylesheet-loader/src/transformer.js:77-79 | `CamelizeDashes` changes the text exactly when `-\w` matches somewhere in it |
| `Declarations.CssVariableValue` | packages/stylesheet-loader/src/transformer.js:76-80 | the result is no longer than the input and no dash in it precedes a lower-case letter |
| `Declarations.ThemeRewrite` | packages/stylesheet-loader/src/transformer.js:76-80 | `var(--name)` becomes `var(` + camel-cased name + `)` |
| `Declarations.ThemeRewriteExample` | packages/stylesheet-loader/src/transformer.js:76-80 | `var(--brand-color)` becomes `var(brandColor)` |
| `Transformer.StripRule` | packages/stylesheet-loader/src/transformer.js:94 | each declaration value becomes `StripQuotes` of itself, i.e. loses exactly its quote characters in place; kind, property and position of every node, the other nodes' values, the tag and the selectors are unchanged |
| `Transformer.Convert` | packages/stylesheet-loader/src/transformer.js:82-119 | there is no style iff the tag is `text`, and then the rule is untouched; otherwise every declaration value is stripped of its quotes and nothing else in the rule changes, the style ignores nodes that are not declarations, every style key comes from a declaration's property or its handler, and the stripped rule gives the same style |
| `Transformer.StyleOfStripped` | packages/stylesheet-loader/src/transformer.js:94-97 | stripping the quotes before converting changes no node's effect on the style |
| `Transformer.ConvertIdempotent` | packages/stylesheet-loader/src/transformer.js:82-119 | converting the converted rule again gives the same style and the same rule |
| `Transformer.Store` | packages/stylesheet-loader/src/transformer.js:97-114 | storing a value adds at most its key and its handler's keys; every other key keeps its value; without a handler (or for a themed reference) the key is overwritten with the value or its rewrite |
| `Transformer.ApplyDeclaration` | packages/stylesheet-loader/src/transformer.js:90-115 | a node that is not a declaration leaves the style alone; a declaration adds at most its key and its handler's keys, and every other key keeps its value; without a consulted handler it overwrites its key |
| `Transformer.StyleOf` | packages/stylesheet-loader/src/transformer.js:90-116 | every key of the style comes from a declaration: its camel-cased property or a key its handler returned |
| `Transformer.MergeParticular` | packages/stylesheet-loader/src/transformer.js:106-114 | the handler's keys are merged; on `isDeleted` the original key goes first and the flag is not merged; other keys keep their values |
| `Transformer.LaterDeclarationOverwrites` | packages/stylesheet-loader/src/transformer.js:95-97 | without a handler, a declaration overwrites its camel-cased key and changes nothing else |
| `Transformer.ThemedReferenceSkipsParticular` | packages/stylesheet-loader/src/transformer.js:99-103 | with a theme, a `var(--…)` value is stored as its rewrite and the particular table is not consulted |
| `Transformer.UnthemedReferenceKeptVerbatim` | packages/stylesheet-loader/src/transformer.js:99-115 | without a theme and without a handler, a `var(--…)` value is stored unchanged |
| `Transformer.UnthemedReferenceReachesParticular` | packages/stylesheet-loader/src/transformer.js:104-107 | without a theme, a handler for the key runs even for a `var(--…)` value |
| `Transformer.BrandColorDeclaration` | packages/stylesheet-loader/src/transformer.js:99-103 | `var(--brand-color)` is stored verbatim without a theme and as `var(brandColor)` with one |
| `Transformer.ParticularHandlerMerged` | packages/stylesheet-loader/src/transformer.js:106-114 | after a handled declaration, the style keys are the old ones plus the property and the handler's keys; with `isDeleted` the property key is removed first and the flag itself is not merged |
| `Transformer.OnlyDeclarations` | packages/stylesheet-loader/src/transformer.js:91-93 | every kept node is a declaration from the list, and every declaration node of the list is kept |
| `Transformer.OnlyDeclarationsAppend` | packages/stylesheet-loader/src/transformer.js:90-93 | the kept declarations of two runs of nodes follow each other, so the order is kept |
| `Transformer.OnlyDeclarationsSingle` | packages/stylesheet-loader/src/transformer.js:91-93 | one node is kept iff it is a declaration |
| `Transformer.OtherNodesIgnored` | packages/stylesheet-loader/src/transformer.js:90-93 | nodes that are not declarations do not affect the style |
| `Transformer.StyleKeysWithoutParticular` | packages/stylesheet-loader/src/transformer.js:90-116 | without handlers, a key is in the style iff some declaration node has it as its camel-cased property |
| `Paths.AbsoluteConstantDirs` | packages/jsx2mp-loader/src/component-loader.js:25 | each constant directory is joined to the root context, in order |
| `Paths.OutputPathsDependOnlyOnRelativePath` | packages/jsx2mp-loader/src/component-loader.js:27-30 | of the component's location only its path relative to `sourcePath` matters: two components at the same relative path, built to the same output path for the same platform, get the same `distFileWithoutExt` and the same output files, whatever their roots and entries |
| `Paths.OutputPathsFor` | packages/jsx2mp-loader/src/component-loader.js:92-99 | code, json, css and template are `distFileWithoutExt` plus `.js`, `.json` and the platform's css and xml extensions; assets go to `outputPath` |
| `Paths.OutputPathsDistinct` | packages/jsx2mp-loader/src/component-loader.js:94-97 | with four distinct extensions, the four files never collide |
| `Paths.RewriteUsingComponents` | packages/jsx2mp-loader/src/component-loader.js:66-79 | the key set is preserved; `c-` keys get the relativised, prefixed, extension-less and normalised path; all other keys get only the normalised path |
| `Paths.RewriteIsPerEntry` | packages/jsx2mp-loader/src/component-loader.js:68-77 | each entry is rewritten from its own key and value alone, so the rewrite commutes with merging maps |
| `Paths.RewriteConfig` | packages/jsx2mp-loader/src/component-loader.js:60-79 | the other config fields are untouched; `usingComponents` stays absent or present with the same keys |
| `Dependencies.IsCustomComponent` | packages/jsx2mp-loader/src/component-loader.js:106-118 | the keys play no part: a name is custom exactly when some value in the map is non-empty and starts with `join(dirname(resourcePath), name)` |
| `Dependencies.FindCustomComponent` | packages/jsx2mp-loader/src/component-loader.js:106-118 | true iff some own key has a non-empty value beginning with `join(dirname(resourcePath), name)` |
| `Dependencies.NoUsingComponentsNoCustom` | packages/jsx2mp-loader/src/component-loader.js:106-118 | an absent or empty map makes no name custom |
| `Dependencies.LibraryOptions` | packages/jsx2mp-loader/src/component-loader.js:138-140 | the loader options plus `importedComponent` set to the usage's local name |
| `Dependencies.UsageRecords` | packages/jsx2mp-loader/src/component-loader.js:130-148 | a non-custom name gets at most one record per usage, every record carries the name, and every record with a loader uses the script loader |
| `Dependencies.EntryRecords` | packages/jsx2mp-loader/src/component-loader.js:121-149 | every record of an imported name carries that name, and a custom component yields exactly one |
| `Dependencies.DependencyRecords` | packages/jsx2mp-loader/src/component-loader.js:120-150 | every record names a key of `transformed.imported` |
| `Dependencies.ClassifyUsages` | packages/jsx2mp-loader/src/component-loader.js:130-148 | the usage loop with its `entirePush` flag computes the records of a non-custom name |
| `Dependencies.ClassifyEntry` | packages/jsx2mp-loader/src/component-loader.js:121-149 | the callback computes the records of one imported name |
| `Dependencies.ClassifyImports` | packages/jsx2mp-loader/src/component-loader.js:120-150 | the loop over the keys of `transformed.imported` computes the dependency list |
| `Dependencies.CustomComponentRecord` | packages/jsx2mp-loader/src/component-loader.js:122-128 | a custom component yields exactly one record with the unchanged options; it goes to the script loader iff its resolved path is in a constant directory |
| `Dependencies.CustomComponentOutsideConstantDir` | packages/jsx2mp-loader/src/component-loader.js:106-128 | a matching entry outside every constant directory routes the name to the component loader |
| `Dependencies.LibraryUsagesInOrder` | packages/jsx2mp-loader/src/component-loader.js:132-141 | the records that name a loader are exactly the component-library usages, in usage order, each with its own `importedComponent` |
| `Dependencies.PlainUsagesDeduplicated` | packages/jsx2mp-loader/src/component-loader.js:142-147 | a name gets one `{ name }` record if it has any plain usage, else none; no other name gets one |
| `Dependencies.UsageRecordCount` | packages/jsx2mp-loader/src/component-loader.js:132-148 | the records number the library usages plus one if there is a plain usage |
| `Dependencies.PlainRecordPosition` | packages/jsx2mp-loader/src/component-loader.js:142-147 | the `{ name }` record sits right after the records of the library usages before the first plain usage |
| `Dependencies.NoUsagesNoRecords` | packages/jsx2mp-loader/src/component-loader.js:130-148 | a non-custom name with no usages yields no record |
| `Dependencies.DependencyRecordsAppend` | packages/jsx2mp-loader/src/component-loader.js:120-150 | records follow the key order: two runs of keys give their records one after the other, with nothing reordered or dropped |
| `Dependencies.AtMostOnePlainRecord` | packages/jsx2mp-loader/src/component-loader.js:120-150 | with distinct keys, no name gets two `{ name }` records, and one only for an imported name |
| `CodeGen.ModuleRequest` | packages/jsx2mp-loader/src/component-loader.js:160-162 | a record without a loader requests the bare name; one with a loader is `loader?`, then exactly the serialised options, then `!name` |
| `CodeGen.RequestRoundTrip` | packages/jsx2mp-loader/src/component-loader.js:162 | splitting the request at its `!` and then at the first `?` gives back the loader, the serialised options and the name, when the loader path has no separators and neither the options nor the name has a `!` |
| `CodeGen.ImportStatement` | packages/jsx2mp-loader/src/component-loader.js:168-170 | the statement is `import '`, then exactly the escaped request `doubleBackslash(req)`, then `';` |
| `CodeGen.ImportLines` | packages/jsx2mp-loader/src/component-loader.js:158-165 | one statement per record, in record order |
| `CodeGen.GenerateDependencies` | packages/jsx2mp-loader/src/component-loader.js:158-166 | no records give empty text; otherwise, when every statement fits on one line, the text splits back into exactly one statement per record, in order |
| `CodeGen.LoaderSource` | packages/jsx2mp-loader/src/component-loader.js:152-155 | the returned text is the header, a newline and then the dependency text; the header is its first line when the path has no newline |
| `CodeGen.EmittedLines` | packages/jsx2mp-loader/src/component-loader.js:152-170 | split on newlines, the returned text is the header line and then exactly one import line per record, or one empty line when there are none |
| `Loader.OutputContentOf` | packages/jsx2mp-loader/src/component-loader.js:84-91 | code, map and template pass through; css defaults to `''` without a style; json keeps every other config field, keeps an absent `usingComponents` absent, and otherwise holds the rewritten `usingComponents` |
| `Loader.RunLoader` | packages/jsx2mp-loader/src/component-loader.js:48-155 | a run fails iff the compiler fails (rejections of `processCSS` and file-system errors are not modelled), and then with a new error whose message is `String(e)` of the thrown value; a successful run watches the compiler's file dependencies, keeps the compiled code, template and other config fields, sends assets to `outputPath`, records only imported names, as classified, and returns the header line followed by the import statements |
| `Loader.Run` | packages/jsx2mp-loader/src/component-loader.js:120-155 | running the loops gives the same result as the functional definition |
| `Loader.DependenciesIgnoreConfig` | packages/jsx2mp-loader/src/component-loader.js:120-122 | the config does not influence the records or the returned module |
| `Loader.WrittenConfig` | packages/jsx2mp-loader/src/component-loader.js:60-79 | the written config is the compiled one with only `usingComponents` rewritten |
| `Loader.ReturnedModuleLines` | packages/jsx2mp-loader/src/component-loader.js:152-155 | the returned module is the header naming the file, then one import line per record |
| `Loader.CompileFailureRethrown` | packages/jsx2mp-loader/src/component-loader.js:48-54 | a compiler failure yields only a new error whose message is `String(e)` of the thrown value, with no output and no dependency, whatever the style results |

## Left out

- File-system effects: reading the source, creating the output directory, and the `output(...)` call. The model computes what is passed to `output`, not what it writes. A throw from `mkdirpSync` or `output`, or a rejected `processCSS`, also ends a run; these failures are not modelled, so a run fails only when the compiler does.
- The JSX compiler, dead-code elimination and `processCSS`. Their results are inputs (`Loader.Transformed`, `Loader.ProcessedCss`).
- Console output, `chalk` and `PrettyError`. The error sink of `sanitizeSelector` is an appended list of messages.
- `Validation.validate`. It only reports and never changes the style.
- `getOptions`, `this.addDependency` and `this._compiler`: webpack plumbing. The files given to `addDependency` are recorded as `watched`.
- The internals of `camelcase`, `normalizeColor`, `particular`, the `path` module, the `pathHelper` functions and `JSON.stringify`. They stay uninterpreted. `cached` only memoises `isFromTargetDirs`, so it is the plain predicate here.
- `Number()` float semantics, including NaN as a stored value (`Transformer.Truthy` treats any number other than zero as truthy). Numbers are opaque `real`s.
- Inherited `Object.prototype` names such as `constructor` or `toString`. `COLOR_PROPERTIES[property]`, `particular[key]` and `for … in` would see them. The model treats these lookups as own-key membership.
- The key order of objects. Style objects, configs and loader options are maps, and `JSON.stringify` is uninterpreted, so its output order is not modelled. The order of `transformed.imported` keys and of usages is kept as a sequence.
- Default arguments of `sanitizeSelector` and `convert`. The defaults (`false`, a start position of line 0 and column 0, `false`, and an empty `query`) are ordinary argument values, so a call that relies on them is the call with `Query(false, false)` and an explicit zero position. `theme` and `log` are booleans rather than arbitrary truthy values.
- Values in `usingComponents` that are not strings. Map values are strings, and "truthy" means non-empty.
- Paths.RewriteUsingComponents: the rewritten path is stated only in terms of the uninterpreted path helpers. That it points back to the original component file cannot be proved without the helpers' definitions.
- `String(e)` of the compiler's thrown value, and the stack and `cause` of the new `Error`. The message is an uninterpreted function of the thrown value.
- CodeGen.GenerateDependencies: the split into one statement per record is stated only when each emitted statement is a single line, because `doubleBackslash` and `JSON.stringify` are uninterpreted.
- CodeGen.EmittedLines: it needs the escaped requests and the resource path to be free of newlines, because `doubleBackslash` is uninterpreted.

=== FILE: codegen.dfy ===
/**
  The module the component loader emits: a header comment naming the
  source file, then one `import` statement per dependency record, written
  in webpack's inline-loader request syntax `loader?options!resource`.
 */
module CodeGen {
  import opened Wrappers
  import opened Text
  import opened Paths
  import opened Dependencies

  /** The loader files and `JSON.stringify`, which the model does not interpret. */
  datatype Emitter = Emitter(
    componentLoaderPath: string,   // `__filename` of the component loader
    scriptLoaderPath: string,      // `require.resolve('./script-loader')`
    stringify: LoaderOptions -> string)

  function LoaderPath(e: Emitter, kind: LoaderKind): string {
    match kind
    case ComponentLoader => e.componentLoaderPath
    case ScriptLoader => e.scriptLoaderPath
  }

  /** The request of one record: the bare name, or `loader + '?' + JSON.stringify(options) + '!' + name`. */
  function ModuleRequest(e: Emitter, rec: DepRecord): (r: string)
    ensures rec.Plain? ==> r == rec.name
    ensures rec.Loaded? ==> StartsWith(r, LoaderPath(e, rec.loader) + "?") && EndsWith(r, "!" + rec.name)
    ensures rec.Loaded? ==>
      var n, o := |LoaderPath(e, rec.loader)|, e.stringify(rec.options);
      |r| == n + |o| + |rec.name| + 2 && r[n + 1..n + 1 + |o|] == o
  {
    match rec
    case Plain(name) => name
    case Loaded(name, loader, options) =>
      var head := LoaderPath(e, loader) + "?" + e.stringify(options);
      var r := head + "!" + name;
      assert r[..|LoaderPath(e, loader) + "?"|] == LoaderPath(e, loader) + "?";
      assert r[|r| - |"!" + name|..] == "!" + name;
      assert head[|LoaderPath(e, loader)| + 1..] == e.stringify(options);
      assert r[..|head|] == head;
      assert r[|LoaderPath(e, loader)| + 1..|head|] == head[|LoaderPath(e, loader)| + 1..];
      r
  }

  // ---------------------------------------------------------------------
  // Reading a request back. Webpack takes the resource after the last `!`;
  // the requests here carry a single `!`, so the first and the last agree.

  datatype LoaderSpec = LoaderSpec(path: string, query: string)

  /** A request split into its loader (if any) and the resource it applies to. */
  datatype ParsedRequest = ParsedRequest(loader: Option<LoaderSpec>, resource: string)

  /** The index of the first `c` in `s`, if there is one. */
  function IndexOf(s: string, c: char): (r: Option<nat>)
    ensures r.None? <==> c !in s
    ensures r.Some? ==> r.value < |s| && s[r.value] == c && c !in s[..r.value]
  {
    if s == [] then None
    else if s[0] == c then Some(0)
    else
      match IndexOf(s[1..], c)
      case None => None
      case Some(i) =>
        assert s[..i + 1] == [s[0]] + s[1..][..i];
        Some(i + 1)
  }

  /** The resource follows the first `!`; the loader before it is split at its first `?`. */
  function ParseRequest(s: string): ParsedRequest {
    match IndexOf(s, '!')
    case None => ParsedRequest(None, s)
    case Some(i) =>
      var spec := s[..i];
      var loader := match IndexOf(spec, '?')
        case None => LoaderSpec(spec, "")
        case Some(j) => LoaderSpec(spec[..j], spec[j + 1..]);
      ParsedRequest(Some(loader), s[i + 1..])
  }

  /** The request of a record carries at most one `!`, and no `?` inside the loader path. */
  predicate Separable(e: Emitter, rec: DepRecord) {
    match rec
    case Plain(name) => '!' !in name
    case Loaded(name, loader, options) =>
      '?' !in LoaderPath(e, loader) && '!' !in LoaderPath(e, loader) && '!' !in e.stringify(options)
      && '!' !in name
  }

  lemma IndexOfAfter(a: string, c: char, b: string)
    requires c !in a
    ensures IndexOf(a + [c] + b, c) == Some(|a|)
  {
    var s := a + [c] + b;
    assert s[|a|] == c;
    assert s[..|a|] == a;
  }

  /**
    Splitting an emitted request at its `!` and the loader part at its first
    `?` gives back the record it came from: the loader file, the serialised
    options and the dependency's name.
   */
  lemma RequestRoundTrip(e: Emitter, rec: DepRecord)
    requires Separable(e, rec)
    ensures var p := ParseRequest(ModuleRequest(e, rec));
      match rec
      case Plain(name) => p == ParsedRequest(None, name)
      case Loaded(name, loader, options) =>
        p == ParsedRequest(Some(LoaderSpec(LoaderPath(e, loader), e.stringify(options))), name)
  {
    if rec.Loaded? {
      var path, query := LoaderPath(e, rec.loader), e.stringify(rec.options);
      var head := path + "?" + query;
      assert '!' !in head by {
        assert forall k :: 0 <= k < |head| ==> head[k] == (if k < |path| then path[k] else if k == |path| then '?' else query[k - |path| - 1]);
      }
      var s := ModuleRequest(e, rec);
      assert s == head + ['!'] + rec.name;
      IndexOfAfter(head, '!', rec.name);
      assert s[..|head|] == head;
      assert s[|head| + 1..] == rec.name;
      IndexOfAfter(path, '?', query);
      assert head[..|path|] == path;
      assert head[|path| + 1..] == query;
    }
  }

  /** `` `import '${doubleBackslash(req)}';` `` */
  function ImportStatement(p: PathOps, req: string): (r: string)
    ensures StartsWith(r, "import '") && EndsWith(r, "';")
    ensures |r| == |p.doubleBackslash(req)| + 10 && r[8..|r| - 2] == p.doubleBackslash(req)
  {
    var r := "import '" + p.doubleBackslash(req) + "';";
    assert r[..|"import '"|] == "import '";
    assert r[|r| - 2..] == "';";
    assert r[8..|r| - 2] == p.doubleBackslash(req);
    r
  }

  /** One import statement per record, in record order. */
  function ImportLines(p: PathOps, e: Emitter, recs: seq<DepRecord>): (r: seq<string>)
    ensures |r| == |recs|
    ensures forall i :: 0 <= i < |recs| ==> r[i] == ImportStatement(p, ModuleRequest(e, recs[i]))
  {
    seq(|recs|, i requires 0 <= i < |recs| => ImportStatement(p, ModuleRequest(e, recs[i])))
  }

  /**
    `generateDependencies(dependencies)`: no text for no record; otherwise,
    when every statement fits on one line, the text splits back into exactly
    one statement per record.
   */
  function GenerateDependencies(p: PathOps, e: Emitter, recs: seq<DepRecord>): (r: string)
    ensures recs == [] ==> r == ""
    ensures recs != [] && (forall i :: 0 <= i < |recs| ==> SingleLine(p, e, recs[i])) ==>
      SplitLines(r) == ImportLines(p, e, recs)
  {
    ImportLinesSplit(p, e, recs);
    JoinLines(ImportLines(p, e, recs))
  }

  /** Joined single-line statements split back into the statements. */
  lemma ImportLinesSplit(p: PathOps, e: Emitter, recs: seq<DepRecord>)
    ensures recs != [] && (forall i :: 0 <= i < |recs| ==> SingleLine(p, e, recs[i])) ==>
      SplitLines(JoinLines(ImportLines(p, e, recs))) == ImportLines(p, e, recs)
  {
    if recs != [] && (forall i :: 0 <= i < |recs| ==> SingleLine(p, e, recs[i])) {
      ImportLinesSingleLine(p, e, recs);
      SplitJoin(ImportLines(p, e, recs));
    }
  }

  lemma ImportLinesSingleLine(p: PathOps, e: Emitter, recs: seq<DepRecord>)
    requires forall i :: 0 <= i < |recs| ==> SingleLine(p, e, recs[i])
    ensures forall i :: 0 <= i < |recs| ==> '\n' !in ImportLines(p, e, recs)[i]
  {
    forall i | 0 <= i < |recs| ensures '\n' !in ImportLines(p, e, recs)[i] {
      ImportStatementSingleLine(p, ModuleRequest(e, recs[i]));
    }
  }

  /** The header comment of the emitted module. */
  function Header(resourcePath: string): string {
    "/* Generated " + "by JSX2MP " + "ComponentLoader, " + "sourceFile: " + resourcePath + ". */"
  }

  /**
    The loader's return value: the header line, a newline, then the import
    statements; the header is the first line when the path has no newline.
   */
  function LoaderSource(p: PathOps, e: Emitter, resourcePath: string, recs: seq<DepRecord>): (r: string)
    ensures StartsWith(r, Header(resourcePath) + "\n")
    ensures r[|Header(resourcePath)| + 1..] == GenerateDependencies(p, e, recs)
    ensures '\n' !in resourcePath ==> SplitLines(r)[0] == Header(resourcePath)
  {
    var h, g := Header(resourcePath), GenerateDependencies(p, e, recs);
    var r := JoinLines([h, g]);
    assert [h, g][1..] == [g];
    assert JoinLines([g]) == g;
    assert r == h + "\n" + g;
    assert r[..|h + "\n"|] == h + "\n";
    assert r[|h| + 1..] == g;
    if '\n' !in resourcePath then
      HeaderSingleLine(resourcePath);
      SplitAfterLine(h, g);
      r
    else
      r
  }

  /** A statement spans one line when the escaped request does. */
  predicate SingleLine(p: PathOps, e: Emitter, rec: DepRecord) {
    '\n' !in p.doubleBackslash(ModuleRequest(e, rec))
  }

  lemma NoNewlineConcat(a: string, b: string)
    requires '\n' !in a && '\n' !in b
    ensures '\n' !in a + b
  {
    forall k | 0 <= k < |a + b| ensures (a + b)[k] != '\n' {
      if k < |a| { assert (a + b)[k] == a[k]; } else { assert (a + b)[k] == b[k - |a|]; }
    }
  }

  lemma ImportStatementSingleLine(p: PathOps, req: string)
    requires '\n' !in p.doubleBackslash(req)
    ensures '\n' !in ImportStatement(p, req)
  {
    var d := p.doubleBackslash(req);
    NoNewlineConcat("import '", d);
    NoNewlineConcat("import '" + d, "';");
  }

  lemma HeaderSingleLine(resourcePath: string)
    requires '\n' !in resourcePath
    ensures '\n' !in Header(resourcePath)
  {
    var a, b, c, d := "/* Generated ", "by JSX2MP ", "ComponentLoader, ", "sourceFile: ";
    NoNewlineConcat(a, b);
    NoNewlineConcat(a + b, c);
    NoNewlineConcat(a + b + c, d);
    NoNewlineConcat(a + b + c + d, resourcePath);
    NoNewlineConcat(a + b + c + d + resourcePath, ". */");
  }

  /**
    The emitted module is the header line followed by exactly one line per
    dependency record, in order (a single empty line when there is none).
   */
  lemma EmittedLines(p: PathOps, e: Emitter, resourcePath: string, recs: seq<DepRecord>)
    requires '\n' !in resourcePath
    requires forall i :: 0 <= i < |recs| ==> SingleLine(p, e, recs[i])
    ensures SplitLines(LoaderSource(p, e, resourcePath, recs)) ==
      [Header(resourcePath)] + (if recs == [] then [""] else ImportLines(p, e, recs))
  {
    var h, g := Header(resourcePath), GenerateDependencies(p, e, recs);
    HeaderSingleLine(resourcePath);
    assert JoinLines([h, g]) == h + "\n" + g;
    SplitAfterLine(h, g);
    if recs == [] {
      assert SplitLines("") == [""];
    }
  }
}

=== FILE: declarations.dfy ===
/**
  The per-declaration conversions of the stylesheet transformer: property
  names, values, and theme references to CSS custom properties.

  The helpers the transformer imports but does not define (`camelcase`,
  `normalizeColor`, `Number()`, the `particular` table) are fields of
  `Helpers` and stay uninterpreted.
 */
module Declarations {
  import opened Text

  /** A value stored in a style object. `Num` holds the result of `Number()`, kept opaque. */
  datatype Value = Str(s: string) | Num(n: real) | Bool(b: bool)

  /** A "particular" handler: the object it returns for a converted value. */
  type ParticularHandler = Value -> map<string, Value>

  datatype Helpers = Helpers(
    camelCase: string -> string,          // the `camelcase` package
    normalizeColor: string -> string,     // ./normalizeColor
    isNumeric: string -> bool,            // !Number.isNaN(Number(s))
    toNumber: string -> real,             // Number(s)
    particular: map<string, ParticularHandler>)  // ./particular, keyed by camel-cased property

  /** `COLOR_PROPERTIES`: the camel-cased properties whose values are colours. */
  const ColorProperties: set<string> := {
    "color", "backgroundColor", "borderColor", "borderBottomColor",
    "borderTopColor", "borderRightColor", "borderLeftColor"
  }

  /** `QUOTES_REG = /[\\'|\\"]/g`: backslash, single quote, bar and double quote. */
  predicate IsQuoteChar(c: char) {
    c == '\\' || c == '\'' || c == '|' || c == '"'
  }

  /** `value.replace(QUOTES_REG, '')` */
  function StripQuotes(s: string): (r: string)
    ensures forall c :: c in r <==> c in s && !IsQuoteChar(c)
    ensures forall c :: multiset(r)[c] == if IsQuoteChar(c) then 0 else multiset(s)[c]
    ensures (forall i :: 0 <= i < |s| ==> !IsQuoteChar(s[i])) ==> r == s
  {
    Without(s, IsQuoteChar)
  }

  /** `VAR_REGEX = /^var\(\-\-(.*)\)$/`: `var(--…)` with no line terminator inside. */
  predicate IsVarReference(s: string) {
    && |s| >= 7
    && s[..6] == "var(--"
    && s[|s| - 1] == ')'
    && forall i :: 6 <= i < |s| - 1 ==> !IsLineTerminator(s[i])
  }

  // ---------------------------------------------------------------------
  // convertProp

  /** `/^\-\w/`: a vendor prefix such as `-webkit-`. */
  predicate HasVendorPrefix(prop: string) {
    |prop| >= 2 && prop[0] == '-' && IsWordChar(prop[1])
  }

  /** `replace(/^(\w)/, c => c.toUpperCase())` */
  function CapitalizeFirst(s: string): (r: string)
    ensures |r| == |s|
    ensures |s| > 0 ==> r[0] == ToUpper(s[0]) && r[1..] == s[1..]
  {
    if |s| > 0 && IsWordChar(s[0]) then [ToUpper(s[0])] + s[1..] else s
  }

  /** `convertProp(prop)` */
  function ConvertProp(h: Helpers, prop: string): (r: string)
    ensures !HasVendorPrefix(prop) ==> r == h.camelCase(prop)
    ensures |r| == |h.camelCase(prop)|
    ensures |r| > 0 ==> r[1..] == h.camelCase(prop)[1..]
    ensures |r| > 0 && HasVendorPrefix(prop) ==> r[0] == ToUpper(h.camelCase(prop)[0])
  {
    var result := h.camelCase(prop);
    if HasVendorPrefix(prop) then CapitalizeFirst(result) else result
  }

  /**
    `convertProp` is not idempotent: with the `camelcase` package's answers
    for `-webkit-x` and `WebkitX` (both `webkitX`), the second application
    undoes the vendor capitalisation, because the capitalisation keys on the
    raw input.
   */
  lemma ConvertPropNotIdempotent(h: Helpers)
    requires h.camelCase("-webkit-x") == "webkitX"
    requires h.camelCase("WebkitX") == "webkitX"
    ensures ConvertProp(h, "-webkit-x") == "WebkitX"
    ensures ConvertProp(h, ConvertProp(h, "-webkit-x")) == "webkitX"
    ensures ConvertProp(h, ConvertProp(h, "-webkit-x")) != ConvertProp(h, "-webkit-x")
  {
    assert HasVendorPrefix("-webkit-x");
    assert [ToUpper('w')] + "webkitX"[1..] == "WebkitX";
    assert !HasVendorPrefix("WebkitX");
  }

  // ---------------------------------------------------------------------
  // convertValue

  /** `convertValue(property, value)` on the string value of a declaration. */
  function ConvertValue(h: Helpers, property: string, value: string): (v: Value)
    ensures IsVarReference(value) ==> v == Str(value)
    ensures !IsVarReference(value) && property in ColorProperties ==> v == Str(h.normalizeColor(value))
    ensures !IsVarReference(value) && property !in ColorProperties && h.isNumeric(value)
      ==> v == Num(h.toNumber(value))
    ensures !IsVarReference(value) && property !in ColorProperties && !h.isNumeric(value)
      ==> v == Str(value)
  {
    if IsVarReference(value) then Str(value)
    else
      var coerced := if h.isNumeric(value) then Num(h.toNumber(value)) else Str(value);
      if property in ColorProperties then Str(h.normalizeColor(value)) else coerced
  }

  /**
    A value only becomes a number when it is numeric, not a `var(--…)`
    reference and not a colour; a string result is either the value itself
    or its normalised colour.
   */
  lemma ConvertValueKinds(h: Helpers, property: string, value: string)
    ensures ConvertValue(h, property, value).Num? <==>
      !IsVarReference(value) && property !in ColorProperties && h.isNumeric(value)
    ensures ConvertValue(h, property, value).Str?
      ==> ConvertValue(h, property, value).s in {value, h.normalizeColor(value)}
    ensures !ConvertValue(h, property, value).Bool?
  {
  }

  // ---------------------------------------------------------------------
  // convertCSSVariableValue

  predicate DoubleDashAt(s: string, i: int) {
    0 <= i && i + 1 < |s| && s[i] == '-' && s[i + 1] == '-'
  }

  /** `replace(/\-\-/, '')`: the first `--` only. */
  function RemoveFirstDoubleDash(s: string): (r: string)
    ensures |r| == |s| || |r| == |s| - 2
    ensures |r| == |s| - 2 <==> exists j :: DoubleDashAt(s, j)
  {
    if |s| < 2 then s
    else if s[0] == '-' && s[1] == '-' then
      assert DoubleDashAt(s, 0);
      s[2..]
    else
      var t := s[1..];
      assert (exists j :: DoubleDashAt(s, j)) <==> (exists j :: DoubleDashAt(t, j)) by {
        if exists j :: DoubleDashAt(s, j) {
          var j :| DoubleDashAt(s, j);
          assert j != 0 && DoubleDashAt(t, j - 1);
        }
        if exists j :: DoubleDashAt(t, j) {
          var j :| DoubleDashAt(t, j);
          assert DoubleDashAt(s, j + 1);
        }
      }
      [s[0]] + RemoveFirstDoubleDash(t)
  }

  lemma {:induction false} RemoveFirstDoubleDashAt(s: string, i: nat)
    requires DoubleDashAt(s, i)
    requires forall j :: 0 <= j < i ==> !DoubleDashAt(s, j)
    ensures RemoveFirstDoubleDash(s) == s[..i] + s[i + 2..]
  {
    if i > 0 {
      assert !DoubleDashAt(s, 0);
      var t := s[1..];
      assert DoubleDashAt(t, i - 1);
      forall j | 0 <= j < i - 1 ensures !DoubleDashAt(t, j) {
        assert !DoubleDashAt(s, j + 1);
      }
      RemoveFirstDoubleDashAt(t, i - 1);
      assert RemoveFirstDoubleDash(s) == [s[0]] + RemoveFirstDoubleDash(t);
      assert s[..i] == [s[0]] + t[..i - 1];
      assert s[i + 2..] == t[i + 1..];
    }
  }

  lemma {:induction false} RemoveFirstDoubleDashAbsent(s: string)
    requires forall j :: 0 <= j < |s| ==> !DoubleDashAt(s, j)
    ensures RemoveFirstDoubleDash(s) == s
  {
    if |s| >= 2 {
      assert !DoubleDashAt(s, 0);
      var t := s[1..];
      forall j | 0 <= j < |t| ensures !DoubleDashAt(t, j) {
        assert !DoubleDashAt(s, j + 1);
      }
      RemoveFirstDoubleDashAbsent(t);
      assert s == [s[0]] + t;
    }
  }

  /** `replace(/\-(\w)/g, (all, letter) => letter.toUpperCase())`, scanning left to right. */
  function CamelizeDashes(s: string): (r: string)
    ensures |r| <= |s|
    ensures |r| == 0 <==> |s| == 0
  {
    if s == [] then []
    else if |s| >= 2 && s[0] == '-' && IsWordChar(s[1]) then
      [ToUpper(s[1])] + CamelizeDashes(s[2..])
    else
      [s[0]] + CamelizeDashes(s[1..])
  }

  /** The replacement changes the text exactly when `-\w` matches somewhere in it. */
  lemma {:induction false} CamelizeChangesIffMatch(s: string)
    ensures CamelizeDashes(s) == s <==> !HasDashPair(s)
    decreases |s|
  {
    if s == [] {
    } else if |s| >= 2 && s[0] == '-' && IsWordChar(s[1]) {
      assert DashPairAt(s, 0);
    } else {
      var t := s[1..];
      CamelizeChangesIffMatch(t);
      assert HasDashPair(s) <==> HasDashPair(t) by {
        if HasDashPair(s) {
          var j :| 0 <= j < |s| && DashPairAt(s, j);
          assert j != 0;
          assert t[j - 1] == s[j] && t[j] == s[j + 1];
          assert DashPairAt(t, j - 1);
        }
        if HasDashPair(t) {
          var j :| 0 <= j < |t| && DashPairAt(t, j);
          assert s[j + 1] == t[j] && s[j + 2] == t[j + 1];
          assert DashPairAt(s, j + 1);
        }
      }
      assert s == [s[0]] + t;
      assert CamelizeDashes(s) == [s[0]] + CamelizeDashes(t);
    }
  }

  /** `-\w` matches at index `i`. */
  predicate DashPairAt(s: string, i: int) {
    0 <= i && i + 1 < |s| && s[i] == '-' && IsWordChar(s[i + 1])
  }

  /** `/\-(\w)/` matches somewhere in the text. */
  predicate HasDashPair(s: string) {
    exists i :: 0 <= i < |s| && DashPairAt(s, i)
  }

  /** No `-` in the text is directly followed by a lower-case ASCII letter. */
  predicate NoDashBeforeLower(s: string) {
    forall i :: 0 <= i < |s| - 1 && s[i] == '-' ==> !IsAsciiLower(s[i + 1])
  }

  /** The rewrite only puts a lower-case letter first when the text started with it. */
  lemma CamelizeFirst(s: string)
    requires s != []
    ensures IsAsciiLower(CamelizeDashes(s)[0]) ==> CamelizeDashes(s)[0] == s[0]
  {
  }

  /**
    After the rewrite no dash is followed by a lower-case letter: every
    `-x` the scan meets is consumed, and a dash it keeps is followed by
    something that is not a word character or by an upper-cased one.
   */
  lemma {:induction false} CamelizeLeavesNoDashBeforeLower(s: string)
    ensures NoDashBeforeLower(CamelizeDashes(s))
  {
    if s != [] {
      var r := CamelizeDashes(s);
      if |s| >= 2 && s[0] == '-' && IsWordChar(s[1]) {
        var rest := CamelizeDashes(s[2..]);
        CamelizeLeavesNoDashBeforeLower(s[2..]);
        assert r == [ToUpper(s[1])] + rest;
        forall i | 0 <= i < |r| - 1 && r[i] == '-' ensures !IsAsciiLower(r[i + 1]) {
          assert i > 0 && r[i] == rest[i - 1] && r[i + 1] == rest[i];
        }
      } else {
        var rest := CamelizeDashes(s[1..]);
        CamelizeLeavesNoDashBeforeLower(s[1..]);
        assert r == [s[0]] + rest;
        forall i | 0 <= i < |r| - 1 && r[i] == '-' ensures !IsAsciiLower(r[i + 1]) {
          if i == 0 {
            assert r[1] == rest[0];
            CamelizeFirst(s[1..]);
          } else {
            assert r[i] == rest[i - 1] && r[i + 1] == rest[i];
          }
        }
      }
    }
  }

  lemma {:induction false} CamelizeDashFree(s: string)
    requires '-' !in s
    ensures CamelizeDashes(s) == s
  {
    if s != [] {
      assert s[0] in s;
      assert '-' !in s[1..] by {
        forall i | 0 <= i < |s[1..]| ensures s[1..][i] != '-' { assert s[1..][i] == s[i + 1]; }
      }
      CamelizeDashFree(s[1..]);
      assert s == [s[0]] + s[1..];
    }
  }

  /** A dash at the end of `a` cannot pair with the first character of `b`. */
  predicate Splittable(a: string, b: string) {
    a == [] || b == [] || a[|a| - 1] != '-' || !IsWordChar(b[0])
  }
  /** The scan can be split wherever a dash cannot pair with the next character. */
  lemma {:induction false} CamelizeAppend(a: string, b: string)
    requires Splittable(a, b)
    ensures CamelizeDashes(a + b) == CamelizeDashes(a) + CamelizeDashes(b)
    decreases |a|
  {
    if a == [] {
      assert a + b == b;
    } else if |a| >= 2 && a[0] == '-' && IsWordChar(a[1]) {
      CamelizeAppendPair(a, b);
    } else {
      CamelizeAppendSingle(a, b);
    }
  }
  lemma {:induction false} CamelizeAppendPair(a: string, b: string)
    requires Splittable(a, b)
    requires |a| >= 2 && a[0] == '-' && IsWordChar(a[1])
    ensures CamelizeDashes(a + b) == CamelizeDashes(a) + CamelizeDashes(b)
    decreases |a|, 0
  {
    var s, a' := a + b, a[2..];
    assert s[0] == a[0] && s[1] == a[1] && s[2..] == a' + b;
    assert Splittable(a', b) by {
      if |a'| > 0 { assert a'[|a'| - 1] == a[|a| - 1]; }
    }
    CamelizeAppend(a', b);
    CamelizePairStep(s);
    CamelizePairStep(a);
    AppendAssociative([ToUpper(a[1])], CamelizeDashes(a'), CamelizeDashes(b));
  }
  lemma {:induction false} CamelizeAppendSingle(a: string, b: string)
    requires Splittable(a, b)
    requires a != [] && !(|a| >= 2 && a[0] == '-' && IsWordChar(a[1]))
    ensures CamelizeDashes(a + b) == CamelizeDashes(a) + CamelizeDashes(b)
    decreases |a|, 0
  {
    if |a| == 1 {
      CamelizeAppendChar(a, b);
    } else {
      var s, a' := a + b, a[1..];
      assert s[0] == a[0] && s[1] == a[1] && s[1..] == a' + b;
      CamelizeSingleStep(s);
      CamelizeSingleStep(a);
      assert a'[|a'| - 1] == a[|a| - 1];
      CamelizeAppend(a', b);
      AppendAssociative([a[0]], CamelizeDashes(a'), CamelizeDashes(b));
    }
  }

  /** A single character that cannot pair with what follows is copied in front of it. */
  lemma CamelizeAppendChar(a: string, b: string)
    requires |a| == 1 && Splittable(a, b)
    ensures CamelizeDashes(a + b) == CamelizeDashes(a) + CamelizeDashes(b)
  {
    var s := a + b;
    assert s[0] == a[0] && s[1..] == b;
    assert !(|s| >= 2 && s[0] == '-' && IsWordChar(s[1])) by {
      if b != [] { assert s[1] == b[0]; }
    }
    CamelizeSingleStep(s);
    CamelizeSingleStep(a);
  }

  /** A character that does not start a `-\w` pair is copied. */
  lemma CamelizeSingleStep(s: string)
    requires s != [] && !(|s| >= 2 && s[0] == '-' && IsWordChar(s[1]))
    ensures CamelizeDashes(s) == [s[0]] + CamelizeDashes(s[1..])
  {
  }

  /** A `-\w` pair becomes the upper-cased character. */
  lemma CamelizePairStep(s: string)
    requires |s| >= 2 && s[0] == '-' && IsWordChar(s[1])
    ensures CamelizeDashes(s) == [ToUpper(s[1])] + CamelizeDashes(s[2..])
  {
  }

  /** `convertCSSVariableValue(value)` */
  function CssVariableValue(value: string): (r: string)
    ensures |r| <= |value|
    ensures NoDashBeforeLower(r)
  {
    CamelizeLeavesNoDashBeforeLower(RemoveFirstDoubleDash(value));
    CamelizeDashes(RemoveFirstDoubleDash(value))
  }

  /** Removing the first `--` of `var(--name)` leaves `var(name)`. */
  lemma VarPrefixDashes(name: string)
    ensures RemoveFirstDoubleDash("var(--" + name + ")") == "var(" + name + ")"
  {
    var s := "var(--" + name + ")";
    assert DoubleDashAt(s, 4);
    forall j | 0 <= j < 4 ensures !DoubleDashAt(s, j) {
      assert s[j] != '-';
    }
    RemoveFirstDoubleDashAt(s, 4);
    assert s[..4] == "var(";
    assert s[6..] == name + ")";
  }

  /** Camel-casing `var(name)` camel-cases the name and keeps the wrapper. */
  lemma CamelizeVarWrapper(name: string)
    ensures CamelizeDashes("var(" + name + ")") == "var(" + CamelizeDashes(name) + ")"
  {
    CamelizeAppend(name, ")");
    CamelizeDashFree(")");
    CamelizeAppend("var(", name + ")");
    CamelizeDashFree("var(");
    assert "var(" + name + ")" == "var(" + (name + ")");
  }

  /**
    The theme rewrite of `var(--name)` drops the leading `--` and camel-cases
    the name inside: it stays wrapped in `var(…)`.
   */
  lemma ThemeRewrite(name: string)
    ensures CssVariableValue("var(--" + name + ")") == "var(" + CamelizeDashes(name) + ")"
  {
    VarPrefixDashes(name);
    CamelizeVarWrapper(name);
  }

  /** `var(--brand-color)` is a `var(--…)` reference. */
  lemma BrandColorIsVarReference(value: string)
    requires value == "var(--brand-color)"
    ensures IsVarReference(value)
  {
    assert value[..6] == "var(--";
  }

  /** `var(--brand-color)` becomes `var(brandColor)`. */
  lemma ThemeRewriteExample(value: string)
    requires value == "var(--brand-color)"
    ensures CssVariableValue(value) == "var(brandColor)"
  {
    var name := value[6..|value| - 1];
    BrandColorReferenceParts(value);
    ThemeRewrite(name);
    BrandColorCamelized(name);
    BrandColorWrapped(CamelizeDashes(name));
  }

  lemma BrandColorReferenceParts(value: string)
    requires value == "var(--brand-color)"
    ensures "var(--" + value[6..|value| - 1] + ")" == value
    ensures value[6..|value| - 1] == "brand-color"
  {
  }

  lemma BrandColorWrapped(c: string)
    requires c == "brandColor"
    ensures "var(" + c + ")" == "var(brandColor)"
  {
  }

  lemma BrandColorCamelized(s: string)
    requires s == "brand-color"
    ensures CamelizeDashes(s) == "brandColor"
  {
    var a, b := s[..5], s[5..];
    assert a == "brand" && b == "-color";
    assert s == a + b;
    assert '-' !in a;
    CamelizeDashFree(a);
    assert Splittable(a, b) by { assert a[4] == 'd'; }
    CamelizeAppend(a, b);
    DashColorCamelized(b);
    assert a + "Color" == "brandColor";
  }

  lemma DashColorCamelized(s: string)
    requires s == "-color"
    ensures CamelizeDashes(s) == "Color"
  {
    assert s[0] == '-' && s[1] == 'c';
    assert IsWordChar(s[1]);
    CamelizePairStep(s);
    var rest := s[2..];
    assert rest == "olor";
    assert '-' !in rest;
    CamelizeDashFree(rest);
    assert ToUpper('c') == 'C';
    assert [ToUpper('c')] + rest == "Color";
  }
}

=== FILE: dependencies.dfy ===
/**
  Dependency classification of the component loader: every name the
  compiler reports as imported becomes zero or more dependency records,
  each routed to the component loader, to the script loader, or to no
  loader at all.
 */
module Dependencies {
  import opened Wrappers
  import opened Text
  import opened Json
  import opened Paths

  /** One use of an imported name, from `transformed.imported[name]`. */
  datatype Usage = Usage(isFromComponentLibrary: bool, local: string)

  /** One key of `transformed.imported` with its usages; keys are listed in `Object.keys` order. */
  datatype ImportEntry = ImportEntry(name: string, usages: seq<Usage>)

  datatype LoaderKind = ComponentLoader | ScriptLoader

  type LoaderOptions = map<string, Json>

  /** `{ name }` or `{ name, loader, options }`. */
  datatype DepRecord = Plain(name: string) | Loaded(name: string, loader: LoaderKind, options: LoaderOptions)

  /** What classification reads besides the imports. */
  datatype Classifier = Classifier(
    paths: PathOps,
    resourcePath: string,
    constantDirs: seq<string>,              // absoluteConstantDir
    usingComponents: Option<UsingComponents>, // transformed.usingComponents
    options: LoaderOptions)                 // the loader's own options

  /** `join(dirname(resourcePath), name)` */
  function MatchingPath(c: Classifier, name: string): string {
    c.paths.join(c.paths.dirname(c.resourcePath), name)
  }

  /** `usingComponents[key] && usingComponents[key].indexOf(matchingPath) === 0` */
  predicate ValueMatches(value: string, matchingPath: string) {
    value != "" && StartsWith(value, matchingPath)
  }

  /**
    `isCustomComponent(name, transformed.usingComponents)`: the keys play no
    part, a name is custom exactly when some path in the map starts with it.
   */
  predicate IsCustomComponent(c: Classifier, name: string)
    ensures IsCustomComponent(c, name) <==>
      c.usingComponents.Some? &&
      exists v :: v in c.usingComponents.value.Values && ValueMatches(v, MatchingPath(c, name))
  {
    c.usingComponents.Some? &&
    exists key :: key in c.usingComponents.value
      && ValueMatches(c.usingComponents.value[key], MatchingPath(c, name))
  }

  /** The `for (let key in usingComponents)` loop of `isCustomComponent`, with its early return. */
  method FindCustomComponent(c: Classifier, name: string) returns (found: bool)
    ensures found <==> (c.usingComponents.Some? &&
      exists key :: key in c.usingComponents.value
        && ValueMatches(c.usingComponents.value[key], MatchingPath(c, name)))
  {
    if c.usingComponents.None? {
      return false;
    }
    var m := c.usingComponents.value;
    var matchingPath := MatchingPath(c, name);
    var keys := m.Keys;
    while keys != {}
      invariant keys <= m.Keys
      invariant forall key :: key in m && key !in keys ==> !ValueMatches(m[key], matchingPath)
      decreases keys
    {
      var key :| key in keys;
      if ValueMatches(m[key], matchingPath) {
        return true;
      }
      keys := keys - {key};
    }
    return false;
  }

  /** An absent or empty `usingComponents` makes no name a custom component. */
  lemma NoUsingComponentsNoCustom(c: Classifier, name: string)
    requires c.usingComponents.None? || c.usingComponents == Some(map[])
    ensures !IsCustomComponent(c, name)
  {
  }

  /** `isFromConstantDir(componentPath)`; `cached` only memoises it. */
  predicate IsFromConstantDir(c: Classifier, path: string) {
    c.paths.isFromTargetDirs(c.constantDirs, path)
  }

  /** The loader of a custom component: native ones under a constant directory are plain scripts. */
  function CustomComponentLoader(c: Classifier, name: string): LoaderKind {
    var componentPath := c.paths.resolve(c.paths.dirname(c.resourcePath), name);
    if IsFromConstantDir(c, componentPath) then ScriptLoader else ComponentLoader
  }

  /** `Object.assign({}, loaderOptions, { importedComponent: local })` */
  function LibraryOptions(options: LoaderOptions, local: string): (r: LoaderOptions)
    ensures r.Keys == options.Keys + {"importedComponent"}
    ensures r["importedComponent"] == JString(local)
    ensures forall k :: k in options && k != "importedComponent" ==> r[k] == options[k]
  {
    options["importedComponent" := JString(local)]
  }

  predicate HasPlainUsage(us: seq<Usage>) {
    exists i :: 0 <= i < |us| && !us[i].isFromComponentLibrary
  }

  /**
    The records of a non-custom name after the given usages: one script
    record per component-library usage, and one loader-less record for the
    first plain usage (`entirePush`).
   */
  function UsageRecords(name: string, options: LoaderOptions, us: seq<Usage>): (r: seq<DepRecord>)
    ensures |r| <= |us|
    ensures forall i :: 0 <= i < |r| ==> r[i].name == name
    ensures forall i :: 0 <= i < |r| && r[i].Loaded? ==> r[i].loader == ScriptLoader
    decreases |us|
  {
    if us == [] then []
    else
      var init, u := us[..|us| - 1], us[|us| - 1];
      UsageRecords(name, options, init) +
        (if u.isFromComponentLibrary then [Loaded(name, ScriptLoader, LibraryOptions(options, u.local))]
         else if HasPlainUsage(init) then []
         else [Plain(name)])
  }

  /**
    The records one key of `transformed.imported` contributes: each carries
    the key's name, and a custom component has exactly one.
   */
  function EntryRecords(c: Classifier, e: ImportEntry): (r: seq<DepRecord>)
    ensures forall i :: 0 <= i < |r| ==> r[i].name == e.name
    ensures IsCustomComponent(c, e.name) ==> |r| == 1
  {
    if IsCustomComponent(c, e.name) then [Loaded(e.name, CustomComponentLoader(c, e.name), c.options)]
    else UsageRecords(e.name, c.options, e.usages)
  }

  /** The `dependencies` array after the given keys of `transformed.imported`: every record names a key. */
  function DependencyRecords(c: Classifier, imported: seq<ImportEntry>): (r: seq<DepRecord>)
    ensures forall i :: 0 <= i < |r| ==> exists j :: 0 <= j < |imported| && imported[j].name == r[i].name
    decreases |imported|
  {
    if imported == [] then []
    else
      var n := |imported| - 1;
      var front, back := DependencyRecords(c, imported[..n]), EntryRecords(c, imported[n]);
      var r := front + back;
      assert forall i :: 0 <= i < |r| ==> exists j :: 0 <= j < |imported| && imported[j].name == r[i].name by {
        forall i | 0 <= i < |r| ensures exists j :: 0 <= j < |imported| && imported[j].name == r[i].name {
          if i < |front| {
            var j :| 0 <= j < n && imported[..n][j].name == front[i].name;
            assert imported[j].name == r[i].name;
          } else {
            assert r[i] == back[i - |front|];
            assert imported[n].name == r[i].name;
          }
        }
      }
      r
  }

  /** The `forEach` over `transformed.imported[name]` for a name that is not a custom component. */
  method ClassifyUsages(name: string, options: LoaderOptions, us: seq<Usage>) returns (recs: seq<DepRecord>)
    ensures recs == UsageRecords(name, options, us)
  {
    recs := [];
    var entirePush := false;
    var j := 0;
    while j < |us|
      invariant 0 <= j <= |us|
      invariant recs == UsageRecords(name, options, us[..j])
      invariant entirePush <==> HasPlainUsage(us[..j])
    {
      var u := us[j];
      assert us[..j + 1][..j] == us[..j];
      HasPlainUsageStep(us[..j + 1]);
      if u.isFromComponentLibrary {
        recs := recs + [Loaded(name, ScriptLoader, options["importedComponent" := JString(u.local)])];
      } else if !entirePush {
        recs := recs + [Plain(name)];
        entirePush := true;
      }
      j := j + 1;
    }
    assert us[..j] == us;
  }

  /** The body of the classification callback for one key. */
  method ClassifyEntry(c: Classifier, e: ImportEntry) returns (recs: seq<DepRecord>)
    ensures recs == EntryRecords(c, e)
  {
    var custom := FindCustomComponent(c, e.name);
    if custom {
      var componentPath := c.paths.resolve(c.paths.dirname(c.resourcePath), e.name);
      var loader := if c.paths.isFromTargetDirs(c.constantDirs, componentPath) then ScriptLoader else ComponentLoader;
      recs := [Loaded(e.name, loader, c.options)];
    } else {
      recs := ClassifyUsages(e.name, c.options, e.usages);
    }
  }

  /** The classification loop: `Object.keys(transformed.imported).forEach(...)`. */
  method ClassifyImports(c: Classifier, imported: seq<ImportEntry>) returns (deps: seq<DepRecord>)
    ensures deps == DependencyRecords(c, imported)
  {
    deps := [];
    var i := 0;
    while i < |imported|
      invariant 0 <= i <= |imported|
      invariant deps == DependencyRecords(c, imported[..i])
    {
      assert imported[..i + 1][..i] == imported[..i];
      var recs := ClassifyEntry(c, imported[i]);
      deps := deps + recs;
      i := i + 1;
    }
    assert imported[..i] == imported;
  }

  // ---------------------------------------------------------------------
  // Properties of classification

  /** A custom component yields exactly one record, with the loader options unchanged. */
  lemma CustomComponentRecord(c: Classifier, e: ImportEntry)
    requires IsCustomComponent(c, e.name)
    ensures EntryRecords(c, e) == [Loaded(e.name, CustomComponentLoader(c, e.name), c.options)]
    ensures EntryRecords(c, e)[0].loader == ScriptLoader <==>
      c.paths.isFromTargetDirs(c.constantDirs, c.paths.resolve(c.paths.dirname(c.resourcePath), e.name))
  {
  }

  /**
    An entry of the compiled `usingComponents` whose value starts with the
    import's matching path, for a file outside every constant directory,
    goes back through the component loader.
   */
  lemma CustomComponentOutsideConstantDir(c: Classifier, e: ImportEntry, key: string)
    requires c.usingComponents.Some? && key in c.usingComponents.value
    requires ValueMatches(c.usingComponents.value[key], MatchingPath(c, e.name))
    requires !c.paths.isFromTargetDirs(c.constantDirs, c.paths.resolve(c.paths.dirname(c.resourcePath), e.name))
    ensures EntryRecords(c, e) == [Loaded(e.name, ComponentLoader, c.options)]
  {
  }

  /** The component-library usages, in order, each as its script-loader record. */
  function LibraryRecords(name: string, options: LoaderOptions, us: seq<Usage>): seq<DepRecord>
    decreases |us|
  {
    if us == [] then []
    else
      var init, u := us[..|us| - 1], us[|us| - 1];
      LibraryRecords(name, options, init) +
        (if u.isFromComponentLibrary then [Loaded(name, ScriptLoader, LibraryOptions(options, u.local))] else [])
  }

  /** The records that name a loader, in order. */
  function LoadedOnly(recs: seq<DepRecord>): seq<DepRecord>
    decreases |recs|
  {
    if recs == [] then []
    else LoadedOnly(recs[..|recs| - 1]) + (if recs[|recs| - 1].Loaded? then [recs[|recs| - 1]] else [])
  }

  /** The number of `{ name }` records for `name`. */
  function PlainCount(recs: seq<DepRecord>, name: string): nat
    decreases |recs|
  {
    if recs == [] then 0
    else PlainCount(recs[..|recs| - 1], name) + (if recs[|recs| - 1] == Plain(name) then 1 else 0)
  }

  lemma {:induction false} LoadedOnlyAppend(a: seq<DepRecord>, b: seq<DepRecord>)
    ensures LoadedOnly(a + b) == LoadedOnly(a) + LoadedOnly(b)
    decreases |b|
  {
    if b == [] {
      assert a + b == a;
    } else {
      var b' := b[..|b| - 1];
      assert (a + b)[..|a + b| - 1] == a + b';
      LoadedOnlyAppend(a, b');
    }
  }

  lemma {:induction false} PlainCountAppend(a: seq<DepRecord>, b: seq<DepRecord>, name: string)
    ensures PlainCount(a + b, name) == PlainCount(a, name) + PlainCount(b, name)
    decreases |b|
  {
    if b == [] {
      assert a + b == a;
    } else {
      var b' := b[..|b| - 1];
      assert (a + b)[..|a + b| - 1] == a + b';
      PlainCountAppend(a, b', name);
    }
  }

  lemma HasPlainUsageStep(us: seq<Usage>)
    requires us != []
    ensures HasPlainUsage(us) <==> HasPlainUsage(us[..|us| - 1]) || !us[|us| - 1].isFromComponentLibrary
  {
    var init := us[..|us| - 1];
    if HasPlainUsage(us) && us[|us| - 1].isFromComponentLibrary {
      var i :| 0 <= i < |us| && !us[i].isFromComponentLibrary;
      assert init[i] == us[i];
    }
    if HasPlainUsage(init) {
      var i :| 0 <= i < |init| && !init[i].isFromComponentLibrary;
      assert us[i] == init[i];
    }
  }

  /**
    The script-loader records of a non-custom name are exactly its
    component-library usages, in usage order, each with `importedComponent`
    set to the usage's local name.
   */
  lemma {:induction false} LibraryUsagesInOrder(name: string, options: LoaderOptions, us: seq<Usage>)
    ensures LoadedOnly(UsageRecords(name, options, us)) == LibraryRecords(name, options, us)
    decreases |us|
  {
    if us != [] {
      var init, u := us[..|us| - 1], us[|us| - 1];
      LibraryUsagesInOrder(name, options, init);
      var tail := if u.isFromComponentLibrary then [Loaded(name, ScriptLoader, LibraryOptions(options, u.local))]
                  else if HasPlainUsage(init) then [] else [Plain(name)];
      LoadedOnlyAppend(UsageRecords(name, options, init), tail);
      if !u.isFromComponentLibrary && !HasPlainUsage(init) {
        assert LoadedOnly(tail) == LoadedOnly([]) + [];
      } else if u.isFromComponentLibrary {
        assert LoadedOnly(tail) == LoadedOnly([]) + tail;
      }
    }
  }

  lemma PlainCountSingle(r: DepRecord, n: string)
    ensures PlainCount([r], n) == (if r == Plain(n) then 1 else 0)
  {
    assert [r][..0] == [];
  }

  /** Plain usages of a name yield one `{ name }` record however many there are, and none without them. */
  lemma {:induction false} PlainUsagesDeduplicated(name: string, options: LoaderOptions, us: seq<Usage>, n: string)
    ensures PlainCount(UsageRecords(name, options, us), n) == (if n == name && HasPlainUsage(us) then 1 else 0)
    decreases |us|
  {
    if us != [] {
      var init, u := us[..|us| - 1], us[|us| - 1];
      PlainUsagesDeduplicated(name, options, init, n);
      HasPlainUsageStep(us);
      var tail := if u.isFromComponentLibrary then [Loaded(name, ScriptLoader, LibraryOptions(options, u.local))]
                  else if HasPlainUsage(init) then [] else [Plain(name)];
      PlainCountAppend(UsageRecords(name, options, init), tail, n);
      if tail != [] {
        PlainCountSingle(tail[0], n);
        assert tail == [tail[0]];
      }
    }
  }

  /** A non-custom name yields one record per library usage plus one for its plain usages, if any. */
  lemma {:induction false} UsageRecordCount(name: string, options: LoaderOptions, us: seq<Usage>)
    ensures |UsageRecords(name, options, us)| ==
      |LibraryRecords(name, options, us)| + (if HasPlainUsage(us) then 1 else 0)
    decreases |us|
  {
    if us != [] {
      UsageRecordCount(name, options, us[..|us| - 1]);
      HasPlainUsageStep(us);
    }
  }

  /** The records after a prefix of the usages are a prefix of the records after all of them. */
  lemma {:induction false} UsageRecordsPrefix(name: string, options: LoaderOptions, us: seq<Usage>, k: nat)
    requires k <= |us|
    ensures UsageRecords(name, options, us[..k]) <= UsageRecords(name, options, us)
    decreases |us| - k
  {
    if k < |us| {
      UsageRecordsPrefix(name, options, us, k + 1);
      assert us[..k + 1][..k] == us[..k];
    } else {
      assert us[..k] == us;
    }
  }

  /** The index of the first plain usage. */
  function FirstPlainUsage(us: seq<Usage>): (i: nat)
    requires HasPlainUsage(us)
    ensures i < |us| && !us[i].isFromComponentLibrary
    ensures forall j :: 0 <= j < i ==> us[j].isFromComponentLibrary
  {
    if !us[0].isFromComponentLibrary then 0
    else
      assert HasPlainUsage(us[1..]) by {
        var i :| 0 <= i < |us| && !us[i].isFromComponentLibrary;
        assert us[1..][i - 1] == us[i];
      }
      var j := FirstPlainUsage(us[1..]);
      assert us[j + 1] == us[1..][j];
      j + 1
  }

  /**
    The `{ name }` record sits where the first plain usage occurs: after the
    records of the library usages that precede it.
   */
  lemma PlainRecordPosition(name: string, options: LoaderOptions, us: seq<Usage>)
    requires HasPlainUsage(us)
    ensures var f := FirstPlainUsage(us);
      var recs := UsageRecords(name, options, us);
      |LibraryRecords(name, options, us[..f])| < |recs|
      && recs[|LibraryRecords(name, options, us[..f])|] == Plain(name)
  {
    var f := FirstPlainUsage(us);
    var before := us[..f];
    assert !HasPlainUsage(before);
    UsageRecordCount(name, options, before);
    assert us[..f + 1][..f] == before;
    assert us[..f + 1][f] == us[f];
    assert UsageRecords(name, options, us[..f + 1]) == UsageRecords(name, options, before) + [Plain(name)];
    UsageRecordsPrefix(name, options, us, f + 1);
  }

  /** A non-custom name with no usages yields no record. */
  lemma NoUsagesNoRecords(c: Classifier, e: ImportEntry)
    requires !IsCustomComponent(c, e.name) && e.usages == []
    ensures EntryRecords(c, e) == []
  {
  }

  /**
    Records follow the key order of `transformed.imported`: classifying two
    runs of keys one after the other gives their records one after the other.
   */
  lemma {:induction false} DependencyRecordsAppend(c: Classifier, a: seq<ImportEntry>, b: seq<ImportEntry>)
    ensures DependencyRecords(c, a + b) == DependencyRecords(c, a) + DependencyRecords(c, b)
    decreases |b|
  {
    if b == [] {
      assert a + b == a;
    } else {
      var ab, b' := a + b, b[..|b| - 1];
      assert ab[..|ab| - 1] == a + b' && ab[|ab| - 1] == b[|b| - 1];
      DependencyRecordsStep(c, ab);
      DependencyRecordsStep(c, b);
      DependencyRecordsAppend(c, a, b');
      AppendAssociative(DependencyRecords(c, a), DependencyRecords(c, b'), EntryRecords(c, b[|b| - 1]));
    }
  }


  lemma DependencyRecordsStep(c: Classifier, imported: seq<ImportEntry>)
    requires imported != []
    ensures DependencyRecords(c, imported) ==
      DependencyRecords(c, imported[..|imported| - 1]) + EntryRecords(c, imported[|imported| - 1])
  {
  }

  predicate DistinctNames(imported: seq<ImportEntry>) {
    forall i, j :: 0 <= i < j < |imported| ==> imported[i].name != imported[j].name
  }

  /** With distinct keys (as object keys are), no name gets two `{ name }` records. */
  lemma {:induction false} AtMostOnePlainRecord(c: Classifier, imported: seq<ImportEntry>, name: string)
    requires DistinctNames(imported)
    ensures PlainCount(DependencyRecords(c, imported), name) <= 1
    ensures PlainCount(DependencyRecords(c, imported), name) == 1 ==>
      exists i :: 0 <= i < |imported| && imported[i].name == name
    decreases |imported|
  {
    if imported != [] {
      var n := |imported| - 1;
      var init, e := imported[..n], imported[n];
      assert DistinctNames(init);
      AtMostOnePlainRecord(c, init, name);
      var front, back := DependencyRecords(c, init), EntryRecords(c, e);
      DependencyRecordsStep(c, imported);
      PlainCountAppend(front, back, name);
      var earlier, mine := PlainCount(front, name), PlainCount(back, name);
      assert mine <= 1 && (mine == 1 ==> e.name == name) by {
        if IsCustomComponent(c, e.name) {
          assert back == [Loaded(e.name, CustomComponentLoader(c, e.name), c.options)];
          PlainCountSingle(back[0], name);
        } else {
          PlainUsagesDeduplicated(e.name, c.options, e.usages, name);
        }
      }
      if earlier == 1 {
        var i :| 0 <= i < |init| && init[i].name == name;
        assert imported[i].name == name;
        assert imported[i].name != imported[n].name;
      }
    }
  }
}

=== FILE: json.dfy ===
/** JSON data: the shape of loader options and of a component's config. */
module Json {

  datatype Json =
    | JNull
    | JBool(b: bool)
    | JNumber(n: real)
    | JString(s: string)
    | JArray(items: seq<Json>)
    | JObject(fields: map<string, Json>)
}

=== FILE: loader.dfy ===
/**
  One run of the component loader on a component file: compile it, hand the
  compiled artifacts and their paths to the output step, and return the
  module that pulls in the component's dependencies.
 */
module Loader {
  import opened Wrappers
  import opened Text
  import opened Json
  import opened Paths
  import opened Dependencies
  import opened CodeGen

  /** What the JSX compiler returns for a component. */
  datatype Transformed = Transformed(
    code: string,
    sourceMap: Option<string>,                  // transformed.map
    config: Config,
    template: string,
    imported: seq<ImportEntry>,                 // keys of transformed.imported, in key order
    usingComponents: Option<UsingComponents>,   // transformed.usingComponents
    fileDependencies: Option<seq<string>>)      // transformed.dependencies, when it is an array

  /** What `processCSS(transformed.cssFiles, sourcePath)` resolves to. */
  datatype ProcessedCss = ProcessedCss(style: Option<string>, assets: Json)

  /** `outputContent` */
  datatype OutputContent = OutputContent(
    code: string, sourceMap: Option<string>, css: string, json: Config, template: string, assets: Json)

  /** `outputOption` */
  datatype OutputOption = OutputOption(outputPath: OutputPaths, mode: string, isTypescriptFile: bool)

  /** The loader's environment: its file and build, its options, and the helpers it calls. */
  datatype Invocation = Invocation(
    ctx: Context,
    options: LoaderOptions,   // getOptions(this)
    mode: string,
    isTypescriptFile: bool,   // isTypescriptFile(resourcePath)
    paths: PathOps,
    emitter: Emitter,
    errorString: string -> string)   // String(e) of what the compiler threw

  /** `new Error(e)`: a fresh error whose message is the thrown value turned into a string. */
  datatype LoaderError = LoaderError(message: string)

  /** Everything a successful run produces. */
  datatype LoaderRun = LoaderRun(
    watched: seq<string>,          // the files passed to addDependency, in order
    content: OutputContent,
    option: OutputOption,
    dependencies: seq<DepRecord>,
    source: string)                // the module the loader returns

  function ClassifierOf(inv: Invocation, t: Transformed): Classifier {
    Classifier(inv.paths, inv.ctx.resourcePath, AbsoluteConstantDirs(inv.paths, inv.ctx),
               t.usingComponents, inv.options)
  }

  /** `outputContent` of a compiled component. */
  function OutputContentOf(inv: Invocation, t: Transformed, css: ProcessedCss): (r: OutputContent)
    ensures r.code == t.code && r.sourceMap == t.sourceMap && r.template == t.template
    ensures css.style.Some? ==> r.css == css.style.value
    ensures css.style.None? ==> r.css == ""
    ensures r.assets == css.assets
    ensures r.json.otherFields == t.config.otherFields
    ensures r.json.usingComponents.Some? <==> t.config.usingComponents.Some?
    ensures r.json.usingComponents.Some? ==>
      r.json.usingComponents.value.Keys == t.config.usingComponents.value.Keys
    ensures t.config.usingComponents.None? ==> r.json == t.config
    ensures t.config.usingComponents.Some? ==>
      r.json.usingComponents == Some(RewriteUsingComponents(inv.paths, inv.ctx.resourcePath,
                                                            t.config.usingComponents.value))
  {
    OutputContent(t.code, t.sourceMap, css.style.GetOr(""),
                  RewriteConfig(inv.paths, inv.ctx.resourcePath, t.config), t.template, css.assets)
  }

  /**
    The whole loader. A compiler failure is rethrown wrapped in a new error,
    before anything is written or any dependency is recorded. A successful
    run watches the compiler's file dependencies, keeps the compiled code and
    every config field but `usingComponents`, records only imported names,
    and returns the header line followed by the import statements.
   */
  function RunLoader(inv: Invocation, compiled: Result<Transformed, string>, css: ProcessedCss)
    : (r: Result<LoaderRun, LoaderError>)
    ensures r.Failure? <==> compiled.Failure?
    ensures compiled.Failure? ==> r.error.message == inv.errorString(compiled.error)
    ensures compiled.Success? ==>
      var t, run := compiled.value, r.value;
      && run.watched == t.fileDependencies.GetOr([])
      && run.content.code == t.code && run.content.template == t.template
      && run.content.json.otherFields == t.config.otherFields
      && run.option.outputPath.assets == inv.ctx.outputPath
      && run.dependencies == DependencyRecords(ClassifierOf(inv, t), t.imported)
      && (forall i :: 0 <= i < |run.dependencies| ==>
            exists j :: 0 <= j < |t.imported| && t.imported[j].name == run.dependencies[i].name)
      && StartsWith(run.source, Header(inv.ctx.resourcePath) + "\n")
      && run.source[|Header(inv.ctx.resourcePath)| + 1..]
           == GenerateDependencies(inv.paths, inv.emitter, run.dependencies)
  {
    match compiled
    case Failure(e) => Failure(LoaderError(inv.errorString(e)))
    case Success(t) =>
      var deps := DependencyRecords(ClassifierOf(inv, t), t.imported);
      Success(LoaderRun(
        t.fileDependencies.GetOr([]),
        OutputContentOf(inv, t, css),
        OutputOption(OutputPathsFor(inv.paths, inv.ctx), inv.mode, inv.isTypescriptFile),
        deps,
        LoaderSource(inv.paths, inv.emitter, inv.ctx.resourcePath, deps)))
  }

  /** The same run, with the classification loop executed as the loader executes it. */
  method Run(inv: Invocation, compiled: Result<Transformed, string>, css: ProcessedCss)
    returns (r: Result<LoaderRun, LoaderError>)
    ensures r == RunLoader(inv, compiled, css)
  {
    if compiled.Failure? {
      return Failure(LoaderError(inv.errorString(compiled.error)));
    }
    var t := compiled.value;
    var deps := ClassifyImports(ClassifierOf(inv, t), t.imported);
    r := Success(LoaderRun(
      t.fileDependencies.GetOr([]),
      OutputContentOf(inv, t, css),
      OutputOption(OutputPathsFor(inv.paths, inv.ctx), inv.mode, inv.isTypescriptFile),
      deps,
      LoaderSource(inv.paths, inv.emitter, inv.ctx.resourcePath, deps)));
  }

  // ---------------------------------------------------------------------
  // Properties of a run

  /**
    The emitted dependencies read `transformed.usingComponents`, not the
    config: two compilations that differ only in their config emit the same
    module.
   */
  lemma DependenciesIgnoreConfig(inv: Invocation, t: Transformed, config: Config, css: ProcessedCss)
    ensures var a := RunLoader(inv, Success(t), css);
      var b := RunLoader(inv, Success(t.(config := config)), css);
      a.value.dependencies == b.value.dependencies && a.value.source == b.value.source
  {
  }

  /**
    The rewritten config is the compiled config with only `usingComponents`
    touched, and a key the compiler did not emit never appears.
   */
  lemma WrittenConfig(inv: Invocation, t: Transformed, css: ProcessedCss)
    ensures var json := RunLoader(inv, Success(t), css).value.content.json;
      && json.otherFields == t.config.otherFields
      && (t.config.usingComponents.None? ==> json == t.config)
      && (t.config.usingComponents.Some? ==>
            json.usingComponents == Some(RewriteUsingComponents(inv.paths, inv.ctx.resourcePath,
                                                                t.config.usingComponents.value)))
  {
  }

  /**
    The returned module is the header naming the component file followed by
    one import line per dependency record.
   */
  lemma ReturnedModuleLines(inv: Invocation, t: Transformed, css: ProcessedCss)
    requires '\n' !in inv.ctx.resourcePath
    requires var deps := DependencyRecords(ClassifierOf(inv, t), t.imported);
      forall i :: 0 <= i < |deps| ==> SingleLine(inv.paths, inv.emitter, deps[i])
    ensures var run := RunLoader(inv, Success(t), css).value;
      SplitLines(run.source) == [Header(inv.ctx.resourcePath)]
        + (if run.dependencies == [] then [""] else ImportLines(inv.paths, inv.emitter, run.dependencies))
  {
    var run := RunLoader(inv, Success(t), css).value;
    assert run.dependencies == DependencyRecords(ClassifierOf(inv, t), t.imported);
    EmittedLines(inv.paths, inv.emitter, inv.ctx.resourcePath, run.dependencies);
  }

  /**
    A compiler failure produces no output and no dependency, only a new
    error carrying the thrown value as its message, whatever the styles.
   */
  lemma CompileFailureRethrown(inv: Invocation, thrown: string, css: ProcessedCss, css': ProcessedCss)
    ensures RunLoader(inv, Failure(thrown), css) == Failure(LoaderError(inv.errorString(thrown)))
    ensures RunLoader(inv, Failure(thrown), css) == RunLoader(inv, Failure(thrown), css')
  {
  }
}

=== FILE: paths.dfy ===
/**
  Path arithmetic of the component loader: where the five artifacts of a
  component go, and how the `usingComponents` entries of its config are
  rewritten. Node's `path` module and the loader's `pathHelper` functions
  are fields of `PathOps` and stay uninterpreted.
 */
module Paths {
  import opened Wrappers
  import opened Text
  import opened Json

  datatype PathOps = PathOps(
    join: (string, string) -> string,
    relative: (string, string) -> string,
    resolve: (string, string) -> string,
    dirname: string -> string,
    removeExt: (string, Option<string>) -> string,   // second argument: the platform type, if given
    addRelativePathPrefix: string -> string,
    normalizeOutputFilePath: string -> string,
    doubleBackslash: string -> string,
    isFromTargetDirs: (seq<string>, string) -> bool)

  datatype Platform = Platform(name: string, platformType: string, cssExtension: string, templateExtension: string)

  /** What one loader invocation knows about its file and its build. */
  datatype Context = Context(
    resourcePath: string,
    rootContext: string,
    entryPath: string,
    outputPath: string,       // the compiler's output path
    constantDir: seq<string>, // relative to rootContext
    platform: Platform)

  /** `constantDir.map(dir => join(rootContext, dir))` */
  function AbsoluteConstantDirs(p: PathOps, ctx: Context): (r: seq<string>)
    ensures |r| == |ctx.constantDir|
    ensures forall i :: 0 <= i < |r| ==> r[i] == p.join(ctx.rootContext, ctx.constantDir[i])
  {
    seq(|ctx.constantDir|, i requires 0 <= i < |ctx.constantDir| => p.join(ctx.rootContext, ctx.constantDir[i]))
  }

  /** `join(rootContext, dirname(entryPath))` */
  function SourcePath(p: PathOps, ctx: Context): string {
    p.join(ctx.rootContext, p.dirname(ctx.entryPath))
  }

  /** `removeExt(join(outputPath, relative(sourcePath, resourcePath)), platform.type)` */
  function DistFileWithoutExt(p: PathOps, ctx: Context): string {
    p.removeExt(p.join(ctx.outputPath, p.relative(SourcePath(p, ctx), ctx.resourcePath)),
                Some(ctx.platform.platformType))
  }

  /**
    Of the component's own location, the output files depend only on its
    path relative to `sourcePath`: two components at the same relative
    path, built to the same output path for the same platform, are written
    to the same files, whatever their roots and entries.
   */
  lemma OutputPathsDependOnlyOnRelativePath(p: PathOps, a: Context, b: Context)
    requires p.relative(SourcePath(p, a), a.resourcePath) == p.relative(SourcePath(p, b), b.resourcePath)
    requires a.outputPath == b.outputPath && a.platform == b.platform
    ensures DistFileWithoutExt(p, a) == DistFileWithoutExt(p, b)
    ensures OutputPathsFor(p, a) == OutputPathsFor(p, b)
  {
  }

  /** `outputOption.outputPath` */
  datatype OutputPaths = OutputPaths(code: string, json: string, css: string, template: string, assets: string)

  /**
    The four files of a component share the base `distFileWithoutExt` and
    differ only in their extension; assets go to the output root.
   */
  function OutputPathsFor(p: PathOps, ctx: Context): (r: OutputPaths)
    ensures var base := DistFileWithoutExt(p, ctx);
      && StartsWith(r.code, base) && r.code[|base|..] == ".js"
      && StartsWith(r.json, base) && r.json[|base|..] == ".json"
      && StartsWith(r.css, base) && r.css[|base|..] == ctx.platform.cssExtension
      && StartsWith(r.template, base) && r.template[|base|..] == ctx.platform.templateExtension
    ensures r.assets == ctx.outputPath
  {
    var base := DistFileWithoutExt(p, ctx);
    OutputPaths(base + ".js", base + ".json", base + ctx.platform.cssExtension,
                base + ctx.platform.templateExtension, ctx.outputPath)
  }

  /**
    When the platform's two extensions differ from each other and from
    `.js` and `.json`, no two of the four files of a component collide.
   */
  lemma OutputPathsDistinct(p: PathOps, ctx: Context)
    requires var exts := [".js", ".json", ctx.platform.cssExtension, ctx.platform.templateExtension];
      forall i, j :: 0 <= i < j < 4 ==> exts[i] != exts[j]
    ensures var r := OutputPathsFor(p, ctx);
      r.code != r.json && r.code != r.css && r.code != r.template
      && r.json != r.css && r.json != r.template && r.css != r.template
  {
    var r := OutputPathsFor(p, ctx);
    var base := DistFileWithoutExt(p, ctx);
    var exts := [".js", ".json", ctx.platform.cssExtension, ctx.platform.templateExtension];
    assert exts[0] != exts[1] && exts[0] != exts[2] && exts[0] != exts[3];
    assert exts[1] != exts[2] && exts[1] != exts[3] && exts[2] != exts[3];
    assert r.code[|base|..] == exts[0] && r.json[|base|..] == exts[1];
    assert r.css[|base|..] == exts[2] && r.template[|base|..] == exts[3];
  }

  // ---------------------------------------------------------------------
  // usingComponents

  /** Tag name to import path. */
  type UsingComponents = map<string, string>

  /** `/^c-/`: keys of user-authored components. */
  predicate IsCustomKey(key: string) {
    StartsWith(key, "c-")
  }

  /** The rewritten path of one entry. */
  function RewriteEntry(p: PathOps, resourcePath: string, key: string, value: string): string {
    if IsCustomKey(key) then
      p.normalizeOutputFilePath(
        p.removeExt(p.addRelativePathPrefix(p.relative(p.dirname(resourcePath), value)), None))
    else
      p.normalizeOutputFilePath(value)
  }

  /** The `Object.keys(config.usingComponents).forEach` rewrite into a fresh object. */
  function RewriteUsingComponents(p: PathOps, resourcePath: string, m: UsingComponents): (r: UsingComponents)
    ensures r.Keys == m.Keys
    ensures forall k :: k in m && !IsCustomKey(k) ==> r[k] == p.normalizeOutputFilePath(m[k])
    ensures forall k :: k in m && IsCustomKey(k) ==>
      r[k] == p.normalizeOutputFilePath(
                p.removeExt(p.addRelativePathPrefix(p.relative(p.dirname(resourcePath), m[k])), None))
  {
    map k | k in m :: RewriteEntry(p, resourcePath, k, m[k])
  }

  /** Each entry is rewritten from its own key and value alone: the rewrite commutes with merging. */
  lemma RewriteIsPerEntry(p: PathOps, resourcePath: string, m1: UsingComponents, m2: UsingComponents)
    ensures RewriteUsingComponents(p, resourcePath, m1 + m2)
      == RewriteUsingComponents(p, resourcePath, m1) + RewriteUsingComponents(p, resourcePath, m2)
  {
  }

  /** A component's config: its `usingComponents` (absent or not) and every other field. */
  datatype Config = Config(usingComponents: Option<UsingComponents>, otherFields: map<string, Json>)

  /** `Object.assign({}, transformed.config)` with its `usingComponents` rewritten. */
  function RewriteConfig(p: PathOps, resourcePath: string, config: Config): (r: Config)
    ensures r.otherFields == config.otherFields
    ensures r.usingComponents.Some? <==> config.usingComponents.Some?
    ensures r.usingComponents.Some? ==> r.usingComponents.value.Keys == config.usingComponents.value.Keys
  {
    match config.usingComponents
    case None => config
    case Some(m) => config.(usingComponents := Some(RewriteUsingComponents(p, resourcePath, m)))
  }
}

=== FILE: selector.dfy ===
/**
  Selector sanitising of the stylesheet transformer: a bare tag selector gets
  the tag marker `@`, a malformed selector is reported to the error sink and
  dropped, and an accepted selector becomes an identifier without white space
  or dots.
 */
module Selector {
  import opened Wrappers
  import opened Text

  /** `position.start` of a parsed rule. */
  datatype Position = Position(line: nat, column: nat)

  /** What `sanitizeSelector` returns (`None` for `null`), with the error sink after the call. */
  datatype Sanitized = Sanitized(selector: Option<string>, errors: seq<string>)

  /** `[.|@|#]`: the class, id and tag markers (the `|` in the class is literal). */
  predicate IsSelectorMarker(c: char) {
    c == '.' || c == '|' || c == '@' || c == '#'
  }

  /** `[a-zA-Z0-9_:\-]` */
  predicate IsSelectorNameChar(c: char) {
    IsWordChar(c) || c == ':' || c == '-'
  }

  /** `/^[.|@|#][a-zA-Z0-9_:\-]+$/`: one marker followed by at least one name character. */
  predicate IsSimpleSelector(s: string) {
    |s| >= 2 && IsSelectorMarker(s[0]) && forall i :: 1 <= i < |s| ==> IsSelectorNameChar(s[i])
  }

  predicate StartsWithLetter(s: string) {
    |s| > 0 && IsAsciiLetter(s[0])
  }

  /**
    A selector starting with a letter is a tag selector and gets the `@`
    marker. A marked selector never starts with a letter, and dropping the
    marker gives the selector back.
   */
  function WithTagMarker(selector: string): (r: string)
    ensures !StartsWithLetter(r)
    ensures StartsWithLetter(selector) ==> |r| == |selector| + 1 && r[0] == '@' && r[1..] == selector
    ensures !StartsWithLetter(selector) ==> r == selector
  {
    if StartsWithLetter(selector) then "@" + selector else selector
  }

  /** Marking an already marked selector changes nothing. */
  lemma TagMarkerIdempotent(selector: string)
    ensures WithTagMarker(WithTagMarker(selector)) == WithTagMarker(selector)
  {
  }

  /** `replace(/\s/gi, '_')` */
  function ReplaceWhitespace(s: string): (r: string)
    ensures |r| == |s|
    ensures forall i :: 0 <= i < |s| ==> r[i] == (if IsJsWhitespace(s[i]) then '_' else s[i])
  {
    if s == [] then []
    else [if IsJsWhitespace(s[0]) then '_' else s[0]] + ReplaceWhitespace(s[1..])
  }

  /** `replace(/\s/gi, '_').replace(/[\.]/g, '')` */
  function Canonical(s: string): (r: string)
    ensures forall c :: c in r ==> !IsJsWhitespace(c) && c != '.'
    ensures forall c :: c in r ==> c in s || c == '_'
    ensures |r| <= |s|
  {
    var spaced := ReplaceWhitespace(s);
    var r := Without(spaced, c => c == '.');
    assert forall c :: c in spaced ==> !IsJsWhitespace(c) && (c in s || c == '_') by {
      forall c | c in spaced ensures !IsJsWhitespace(c) && (c in s || c == '_') {
        var i :| 0 <= i < |spaced| && spaced[i] == c;
      }
    }
    r
  }

  /** Whitespace replacement works character by character. */
  lemma ReplaceWhitespaceAppend(a: string, b: string)
    ensures ReplaceWhitespace(a + b) == ReplaceWhitespace(a) + ReplaceWhitespace(b)
  {
    var l, r := ReplaceWhitespace(a + b), ReplaceWhitespace(a) + ReplaceWhitespace(b);
    forall i | 0 <= i < |l| ensures l[i] == r[i] {
      if i < |a| { assert (a + b)[i] == a[i]; } else { assert (a + b)[i] == b[i - |a|]; }
    }
  }

  /** One character: a dot is deleted, white space becomes `_`, anything else is kept. */
  lemma CanonicalSingle(c: char)
    ensures Canonical([c]) == if c == '.' then "" else if IsJsWhitespace(c) then "_" else [c]
  {
    var spaced := ReplaceWhitespace([c]);
    assert spaced == [if IsJsWhitespace(c) then '_' else c];
    WithoutSingle(spaced[0], c => c == '.');
  }

  /**
    Canonicalising distributes over concatenation: each character is
    replaced or deleted in place, so the rest keeps its order.
   */
  lemma CanonicalAppend(a: string, b: string)
    ensures Canonical(a + b) == Canonical(a) + Canonical(b)
  {
    ReplaceWhitespaceAppend(a, b);
    WithoutAppend(ReplaceWhitespace(a), ReplaceWhitespace(b), c => c == '.');
  }

  predicate IsCanonical(s: string) {
    forall i :: 0 <= i < |s| ==> !IsJsWhitespace(s[i]) && s[i] != '.'
  }

  /** A selector that is already free of white space and dots is kept as it is. */
  lemma CanonicalKeepsCanonical(s: string)
    requires IsCanonical(s)
    ensures Canonical(s) == s
  {
    assert ReplaceWhitespace(s) == s;
  }

  /** Sanitising an identifier a second time changes nothing. */
  lemma CanonicalIdempotent(s: string)
    ensures Canonical(Canonical(s)) == Canonical(s)
  {
    var r := Canonical(s);
    forall i | 0 <= i < |r| ensures !IsJsWhitespace(r[i]) && r[i] != '.' {
      assert r[i] in r;
    }
    CanonicalKeepsCanonical(r);
  }

  /** The message pushed to the error sink for a rejected selector. */
  function InvalidSelectorMessage(position: Position, selector: string): (m: string)
    ensures StartsWith(m, PositionLabel(position))
  {
    PositionLabel(position) + "\"" + selector
      + "\" is not a valid selector (e.g. \".abc\U{3001}.abcBcd\U{3001}.abc_bcd\")"
  }

  function PositionLabel(position: Position): string {
    "line: " + NatToDecimal(position.line) + ", column: " + NatToDecimal(position.column) + " - "
  }

  /**
    `sanitizeSelector(selector, transformDescendantCombinator, position, log)`
    with the error sink passed in and returned.
   */
  function SanitizeSelector(selector: string, transformDescendantCombinator: bool,
                            position: Position, log: bool, errors: seq<string>): (r: Sanitized)
    ensures r.selector.None? <==>
      log && !transformDescendantCombinator && !IsSimpleSelector(WithTagMarker(selector))
    ensures r.selector.None? ==>
      r.errors == errors + [InvalidSelectorMessage(position, WithTagMarker(selector))]
    ensures r.selector.Some? ==>
      r.errors == errors && r.selector.value == Canonical(WithTagMarker(selector))
  {
    var marked := WithTagMarker(selector);
    if log && !transformDescendantCombinator && !IsSimpleSelector(marked) then
      Sanitized(None, errors + [InvalidSelectorMessage(position, marked)])
    else
      Sanitized(Some(Canonical(marked)), errors)
  }

  /** An accepted selector never contains white space or a dot. */
  lemma AcceptedSelectorShape(selector: string, tdc: bool, position: Position,
                              log: bool, errors: seq<string>)
    requires SanitizeSelector(selector, tdc, position, log, errors).selector.Some?
    ensures IsCanonical(SanitizeSelector(selector, tdc, position, log, errors).selector.value)
  {
    var s := SanitizeSelector(selector, tdc, position, log, errors).selector.value;
    forall i | 0 <= i < |s| ensures !IsJsWhitespace(s[i]) && s[i] != '.' {
      assert s[i] in s;
    }
  }

  /** A simple selector that passes validation loses only a leading class dot. */
  lemma SimpleSelectorCanonical(s: string)
    requires IsSimpleSelector(s)
    ensures Canonical(s) == (if s[0] == '.' then s[1..] else s)
  {
    var tail := s[1..];
    assert IsCanonical(tail) by {
      forall i | 0 <= i < |tail| ensures !IsJsWhitespace(tail[i]) && tail[i] != '.' {
        assert IsSelectorNameChar(s[i + 1]);
      }
    }
    assert ReplaceWhitespace(s) == s by {
      assert !IsJsWhitespace(s[0]);
      forall i | 1 <= i < |s| ensures !IsJsWhitespace(s[i]) {
        assert tail[i - 1] == s[i];
      }
    }
    var dot := c => c == '.';
    assert Without(tail, dot) == tail;
    assert s == [s[0]] + tail;
    assert Without(s, dot) == if s[0] == '.' then Without(tail, dot) else [s[0]] + Without(tail, dot);
  }

  /** A bare tag selector gets the tag marker: `Div` becomes `@Div`. */
  lemma TagSelectorExample(position: Position, errors: seq<string>)
    ensures SanitizeSelector("Div", false, position, true, errors) == Sanitized(Some("@Div"), errors)
  {
    assert WithTagMarker("Div") == "@Div";
    assert IsSimpleSelector("@Div") by {
      assert IsSelectorNameChar('D') && IsSelectorNameChar('i') && IsSelectorNameChar('v');
    }
    SimpleSelectorCanonical("@Div");
  }

  /** A class selector loses its dot: `.my_class` becomes `my_class`. */
  lemma ClassSelectorExample(position: Position, errors: seq<string>)
    ensures SanitizeSelector(".my_class", false, position, true, errors)
      == Sanitized(Some("my_class"), errors)
  {
    assert WithTagMarker(".my_class") == ".my_class";
    assert IsSimpleSelector(".my_class") by {
      forall i | 1 <= i < |".my_class"| ensures IsSelectorNameChar(".my_class"[i]) {
        assert IsWordChar(".my_class"[i]);
      }
    }
    SimpleSelectorCanonical(".my_class");
    assert ".my_class"[1..] == "my_class";
  }

  /** `1abc` is rejected with one message that starts with the line it was found on. */
  lemma InvalidSelectorExample(position: Position, errors: seq<string>)
    ensures var r := SanitizeSelector("1abc", false, position, true, errors);
      r.selector.None? && |r.errors| == |errors| + 1
      && StartsWith(r.errors[|errors|], "line: " + NatToDecimal(position.line))
  {
    assert WithTagMarker("1abc") == "1abc";
    assert !IsSimpleSelector("1abc") by { assert !IsSelectorMarker('1'); }
    var prefix := PositionLabel(position);
    var m := InvalidSelectorMessage(position, "1abc");
    var head := "line: " + NatToDecimal(position.line);
    assert prefix == head + (", column: " + NatToDecimal(position.column) + " - ");
    assert m[..|prefix|] == prefix;
    assert m[..|head|] == prefix[..|head|] == head;
  }
}

=== FILE: text.dfy ===
/**
  Character classes and string helpers with the meaning JavaScript's regular
  expressions and String methods give them. Strings are sequences of Unicode
  scalar values.
 */
module Text {

  /** `[a-zA-Z]` */
  predicate IsAsciiLetter(c: char) {
    'a' <= c <= 'z' || 'A' <= c <= 'Z'
  }

  /** `[0-9]` */
  predicate IsDigit(c: char) {
    '0' <= c <= '9'
  }

  /** `\w`: ASCII letters, digits and underscore. */
  predicate IsWordChar(c: char) {
    IsAsciiLetter(c) || IsDigit(c) || c == '_'
  }

  /** `\s`: the white space and line terminator characters of ECMAScript. */
  predicate IsJsWhitespace(c: char) {
    c in {' ', '\t', '\n', '\r', '\U{000B}', '\U{000C}', '\U{00A0}', '\U{1680}',
          '\U{2028}', '\U{2029}', '\U{202F}', '\U{205F}', '\U{3000}', '\U{FEFF}'}
    || '\U{2000}' <= c <= '\U{200A}'
  }

  /** The characters `.` in a regular expression refuses to match. */
  predicate IsLineTerminator(c: char) {
    c == '\n' || c == '\r' || c == '\U{2028}' || c == '\U{2029}'
  }

  predicate IsAsciiLower(c: char) {
    'a' <= c <= 'z'
  }

  /** `toUpperCase` on a character matched by `\w`: only `a`-`z` change. */
  function ToUpper(c: char): char
  {
    if IsAsciiLower(c) then (c as int - 32) as char else c
  }

  lemma AppendAssociative<T>(x: seq<T>, y: seq<T>, z: seq<T>)
    ensures (x + y) + z == x + (y + z)
  {
  }

  predicate StartsWith(s: string, prefix: string) {
    |prefix| <= |s| && s[..|prefix|] == prefix
  }

  predicate EndsWith(s: string, suffix: string) {
    |suffix| <= |s| && s[|s| - |suffix|..] == suffix
  }

  /** Deletes every character `drop` selects (a global `replace(/[...]/g, '')`). */
  function Without(s: string, drop: char -> bool): (r: string)
    ensures |r| <= |s|
    ensures forall c :: c in r <==> c in s && !drop(c)
    ensures forall c :: multiset(r)[c] == if drop(c) then 0 else multiset(s)[c]
    ensures (forall i :: 0 <= i < |s| ==> !drop(s[i])) ==> r == s
  {
    if s == [] then []
    else
      assert s == [s[0]] + s[1..];
      if drop(s[0]) then Without(s[1..], drop)
      else [s[0]] + Without(s[1..], drop)
  }

  /** A single character is kept or deleted on its own. */
  lemma WithoutSingle(c: char, drop: char -> bool)
    ensures Without([c], drop) == if drop(c) then [] else [c]
  {
    assert [c][1..] == [];
  }

  /**
    Deleting distributes over concatenation: each character is kept or
    deleted in place, so the survivors keep their order.
   */
  lemma {:induction false} WithoutAppend(a: string, b: string, drop: char -> bool)
    ensures Without(a + b, drop) == Without(a, drop) + Without(b, drop)
    decreases |a|
  {
    if a == [] {
      assert a + b == b;
    } else {
      assert (a + b)[0] == a[0];
      assert (a + b)[1..] == a[1..] + b;
      WithoutAppend(a[1..], b, drop);
    }
  }

  lemma {:induction false} WithoutIdempotent(s: string, drop: char -> bool)
    ensures Without(Without(s, drop), drop) == Without(s, drop)
  {
    var r := Without(s, drop);
    forall i | 0 <= i < |r|
      ensures !drop(r[i])
    {
      assert r[i] in r;
    }
  }

  // ---------------------------------------------------------------------
  // Decimal rendering of a line or column number inside a template literal

  function DigitChar(d: nat): (c: char)
    requires d < 10
    ensures IsDigit(c)
    ensures c as int - '0' as int == d
  {
    ('0' as int + d) as char
  }

  /** `${n}` for a non-negative integer `n`. */
  function NatToDecimal(n: nat): (r: string)
    ensures |r| >= 1
    ensures forall i :: 0 <= i < |r| ==> IsDigit(r[i])
    ensures r[0] == '0' ==> n == 0
    decreases n
  {
    if n < 10 then [DigitChar(n)] else NatToDecimal(n / 10) + [DigitChar(n % 10)]
  }

  /** The value a string of decimal digits denotes. */
  function DecimalValue(s: string): nat
    requires forall i :: 0 <= i < |s| ==> IsDigit(s[i])
    decreases |s|
  {
    if s == [] then 0
    else
      assert IsDigit(s[|s| - 1]);
      DecimalValue(s[..|s| - 1]) * 10 + (s[|s| - 1] as int - '0' as int)
  }

  /** Reading back the rendered number gives the number: the rendering loses nothing. */
  lemma {:induction false} DecimalRoundTrip(n: nat)
    ensures DecimalValue(NatToDecimal(n)) == n
    decreases n
  {
    if n >= 10 {
      var r := NatToDecimal(n);
      DecimalRoundTrip(n / 10);
      assert r[..|r| - 1] == NatToDecimal(n / 10);
    }
  }

  lemma DecimalInjective(m: nat, n: nat)
    requires NatToDecimal(m) == NatToDecimal(n)
    ensures m == n
  {
    DecimalRoundTrip(m);
    DecimalRoundTrip(n);
  }

  // ---------------------------------------------------------------------
  // Array.prototype.join("\n") and String.prototype.split("\n")

  function JoinLines(lines: seq<string>): string
  {
    if |lines| == 0 then ""
    else if |lines| == 1 then lines[0]
    else lines[0] + "\n" + JoinLines(lines[1..])
  }

  function SplitLines(s: string): (r: seq<string>)
    ensures |r| >= 1
  {
    if s == [] then [""]
    else
      var rest := SplitLines(s[1..]);
      if s[0] == '\n' then [""] + rest else [[s[0]] + rest[0]] + rest[1..]
  }

  lemma {:induction false} SplitWithoutNewline(a: string)
    requires '\n' !in a
    ensures SplitLines(a) == [a]
  {
    if a != [] {
      assert '\n' !in a[1..] by {
        forall i | 0 <= i < |a[1..]| ensures a[1..][i] != '\n' { assert a[1..][i] == a[i + 1]; }
      }
      SplitWithoutNewline(a[1..]);
      assert a[0] in a;
      assert [a[0]] + a[1..] == a;
    }
  }

  lemma {:induction false} SplitAfterLine(a: string, b: string)
    requires '\n' !in a
    ensures SplitLines(a + "\n" + b) == [a] + SplitLines(b)
  {
    if a == [] {
      assert a + "\n" + b == "\n" + b;
      assert ("\n" + b)[1..] == b;
    } else {
      assert a[0] in a;
      assert '\n' !in a[1..] by {
        forall i | 0 <= i < |a[1..]| ensures a[1..][i] != '\n' { assert a[1..][i] == a[i + 1]; }
      }
      SplitAfterLine(a[1..], b);
      assert (a + "\n" + b)[1..] == a[1..] + "\n" + b;
      assert [a[0]] + a[1..] == a;
    }
  }

  /** Splitting the joined text on newlines gives back the lines. */
  lemma {:induction false} SplitJoin(lines: seq<string>)
    requires |lines| >= 1
    requires forall i :: 0 <= i < |lines| ==> '\n' !in lines[i]
    ensures SplitLines(JoinLines(lines)) == lines
    decreases |lines|
  {
    if |lines| == 1 {
      SplitWithoutNewline(lines[0]);
    } else {
      SplitJoin(lines[1..]);
      SplitAfterLine(lines[0], JoinLines(lines[1..]));
      assert [lines[0]] + lines[1..] == lines;
    }
  }
}

=== FILE: transformer.dfy ===
/**
  `convert(rule, query)` of the stylesheet transformer: one parsed rule
  becomes a style object, declaration by declaration, in order.
 */
module Transformer {
  import opened Wrappers
  import opened Text
  import opened Selector
  import opened Declarations

  /** A node of a rule's declaration list; only `nodeType == "declaration"` carries a style. */
  datatype Declaration = Declaration(nodeType: string, property: string, value: string, position: Position)

  datatype Rule = Rule(tagName: string, selectors: seq<string>, declarations: seq<Declaration>)

  /** The options of `convert` that matter to the style: `log` only feeds validation. */
  datatype Query = Query(log: bool, theme: bool)

  /** A style object: camel-cased property to value. */
  type Style = map<string, Value>

  /** The style `convert` returns (`None` for `undefined`) and the rule after its in-place edits. */
  datatype Converted = Converted(style: Option<Style>, rule: Rule)

  predicate IsDeclaration(d: Declaration) {
    d.nodeType == "declaration"
  }

  /** JavaScript truthiness of a stored value (`NaN` is not modelled). */
  predicate Truthy(v: Value) {
    match v
    case Str(s) => s != ""
    case Num(n) => n != 0.0
    case Bool(b) => b
  }

  /** A particular handler asks for the original property to be deleted. */
  predicate IsDeleted(result: map<string, Value>) {
    "isDeleted" in result && Truthy(result["isDeleted"])
  }

  /**
    Merges a particular handler's result into the style: on deletion the
    original key goes first and the `isDeleted` flag is not copied.
   */
  function MergeParticular(style: Style, key: string, result: map<string, Value>): (r: Style)
    ensures IsDeleted(result) ==> r.Keys == (style.Keys - {key}) + (result.Keys - {"isDeleted"})
    ensures !IsDeleted(result) ==> r.Keys == style.Keys + result.Keys
    ensures forall k :: k in result && (k != "isDeleted" || !IsDeleted(result)) ==> r[k] == result[k]
    ensures forall k :: k in style && k !in result && k != key ==> r[k] == style[k]
    ensures !IsDeleted(result) && key in style && key !in result ==> r[key] == style[key]
  {
    if IsDeleted(result) then (style - {key}) + (result - {"isDeleted"}) else style + result
  }

  /** With a theme, a `var(--…)` string value is stored as its theme rewrite. */
  predicate IsThemedReference(theme: bool, v: Value) {
    theme && v.Str? && IsVarReference(v.s)
  }

  /** The key a declaration writes, `convertProp(declaration.property)`. */
  function KeyOf(h: Helpers, d: Declaration): string {
    ConvertProp(h, d.property)
  }

  /** The converted value of a declaration, after the quotes are stripped. */
  function ValueOf(h: Helpers, d: Declaration): Value {
    ConvertValue(h, KeyOf(h, d), StripQuotes(d.value))
  }

  /** Whether the particular table is consulted for a key and its converted value. */
  predicate Consults(h: Helpers, theme: bool, key: string, v: Value) {
    !IsThemedReference(theme, v) && key in h.particular
  }

  /** Whether the particular table is consulted for a declaration. */
  predicate ConsultsParticular(h: Helpers, theme: bool, d: Declaration) {
    Consults(h, theme, KeyOf(h, d), ValueOf(h, d))
  }

  /** The value stored under a key when no particular handler runs. */
  function Rewritten(theme: bool, v: Value): Value {
    if IsThemedReference(theme, v) then Str(CssVariableValue(v.s)) else v
  }

  /** The keys storing a value may add: the key itself and its handler's keys. */
  function StoreKeys(h: Helpers, key: string, v: Value): set<string> {
    {key} + (if key in h.particular then h.particular[key](v).Keys else {})
  }

  /**
    Stores a converted value under its key: a themed reference is stored as
    its rewrite, a key with a handler merges the handler's result, and any
    other value is stored as it is. Keys outside `StoreKeys` keep their values.
   */
  function Store(h: Helpers, theme: bool, style: Style, key: string, v: Value): (r: Style)
    ensures r.Keys <= style.Keys + StoreKeys(h, key, v)
    ensures forall k :: k in style && k !in StoreKeys(h, key, v) ==> k in r && r[k] == style[k]
    ensures !Consults(h, theme, key, v) ==> r == style[key := Rewritten(theme, v)]
  {
    var stored := style[key := v];
    if IsThemedReference(theme, v) then
      var r := stored[key := Str(CssVariableValue(v.s))];
      assert r == style[key := Rewritten(theme, v)];
      r
    else if key in h.particular then
      MergeParticular(stored, key, h.particular[key](v))
    else
      stored
  }

  /**
    The body of the `forEach` callback of `convert` for one node: a node
    that is not a declaration leaves the style alone, and a declaration only
    touches its own key and its handler's keys.
   */
  function ApplyDeclaration(h: Helpers, theme: bool, style: Style, d: Declaration): (r: Style)
    ensures !IsDeclaration(d) ==> r == style
    ensures r.Keys <= style.Keys + KeysOf(h, d)
    ensures forall k :: k in style && k !in KeysOf(h, d) ==> k in r && r[k] == style[k]
    ensures IsDeclaration(d) && !ConsultsParticular(h, theme, d) ==>
      r == style[KeyOf(h, d) := DeclaredValue(h, theme, d)]
  {
    if !IsDeclaration(d) then style
    else Store(h, theme, style, KeyOf(h, d), ValueOf(h, d))
  }

  /**
    The style object after the given nodes, processed in order from an empty
    object. Every key comes from a declaration: its camel-cased property or a
    key its handler returned.
   */
  function StyleOf(h: Helpers, theme: bool, decls: seq<Declaration>): (r: Style)
    ensures r.Keys <= AllKeysOf(h, decls)
    decreases |decls|
  {
    if decls == [] then map[]
    else ApplyDeclaration(h, theme, StyleOf(h, theme, decls[..|decls| - 1]), decls[|decls| - 1])
  }

  /** `declaration.value = declaration.value.replace(QUOTES_REG, '')` on declaration nodes. */
  function StripDeclaration(d: Declaration): Declaration {
    if IsDeclaration(d) then d.(value := StripQuotes(d.value)) else d
  }

  /** Every node of a list with its quotes stripped. */
  function StripAll(ds: seq<Declaration>): (r: seq<Declaration>)
    ensures |r| == |ds|
    ensures forall i :: 0 <= i < |ds| ==> r[i] == StripDeclaration(ds[i])
  {
    seq(|ds|, i requires 0 <= i < |ds| => StripDeclaration(ds[i]))
  }

  /**
    The rule after `convert` has stripped the quotes of every declaration in
    place: each declaration value loses its quote characters, the survivors
    keep their order, and nothing else in the rule changes.
   */
  function StripRule(rule: Rule): (r: Rule)
    ensures r.tagName == rule.tagName && r.selectors == rule.selectors
    ensures |r.declarations| == |rule.declarations|
    ensures forall i :: 0 <= i < |r.declarations| ==>
      var d, d' := rule.declarations[i], r.declarations[i];
      && d'.nodeType == d.nodeType && d'.property == d.property && d'.position == d.position
      && (IsDeclaration(d) ==> d'.value == StripQuotes(d.value))
      && (IsDeclaration(d) ==> forall c :: c in d'.value <==> c in d.value && !IsQuoteChar(c))
      && (!IsDeclaration(d) ==> d'.value == d.value)
  {
    rule.(declarations := StripAll(rule.declarations))
  }

  /**
    `convert(rule, query)`: a `text` rule has no style and is left alone;
    otherwise the style is built from the declaration nodes only, every key
    comes from a declaration, and the stripped rule gives the same style.
   */
  function Convert(h: Helpers, rule: Rule, query: Query): (r: Converted)
    ensures r.style.None? <==> rule.tagName == "text"
    ensures rule.tagName == "text" ==> r.rule == rule
    ensures r.rule.tagName == rule.tagName && r.rule.selectors == rule.selectors
    ensures |r.rule.declarations| == |rule.declarations|
    ensures rule.tagName != "text" ==> forall i :: 0 <= i < |rule.declarations| ==>
      var d, d' := rule.declarations[i], r.rule.declarations[i];
      && d'.nodeType == d.nodeType && d'.property == d.property && d'.position == d.position
      && d'.value == (if IsDeclaration(d) then StripQuotes(d.value) else d.value)
    ensures r.style.Some? ==> r.style.value.Keys <= AllKeysOf(h, rule.declarations)
    ensures r.style.Some? ==> r.style.value == StyleOf(h, query.theme, OnlyDeclarations(rule.declarations))
    ensures r.style.Some? ==> r.style.value == StyleOf(h, query.theme, r.rule.declarations)
  {
    if rule.tagName == "text" then Converted(None, rule)
    else
      OtherNodesIgnored(h, query.theme, rule.declarations);
      StyleOfStripped(h, query.theme, rule.declarations);
      Converted(Some(StyleOf(h, query.theme, rule.declarations)), StripRule(rule))
  }

  /** Stripping the quotes first changes no node's effect on the style. */
  lemma {:induction false} StyleOfStripped(h: Helpers, theme: bool, ds: seq<Declaration>)
    ensures StyleOf(h, theme, StripAll(ds)) == StyleOf(h, theme, ds)
    decreases |ds|
  {
    if ds != [] {
      var init, last := ds[..|ds| - 1], ds[|ds| - 1];
      var stripped := StripAll(ds);
      assert stripped[..|ds| - 1] == StripAll(init);
      StyleOfStripped(h, theme, init);
      if IsDeclaration(last) {
        WithoutIdempotent(last.value, IsQuoteChar);
        assert ValueOf(h, StripDeclaration(last)) == ValueOf(h, last);
      }
    }
  }

  /** Converting the converted rule again gives the same result. */
  lemma ConvertIdempotent(h: Helpers, rule: Rule, query: Query)
    ensures var c := Convert(h, rule, query); Convert(h, c.rule, query) == c
  {
    var c := Convert(h, rule, query);
    if rule.tagName != "text" {
      var stripped := StripAll(rule.declarations);
      forall i | 0 <= i < |stripped| ensures StripDeclaration(stripped[i]) == stripped[i] {
        var d := rule.declarations[i];
        if IsDeclaration(d) {
          WithoutIdempotent(d.value, IsQuoteChar);
        }
      }
      assert StripAll(stripped) == stripped;
    }
  }

  // ---------------------------------------------------------------------
  // Properties of the declaration loop

  /** The value a declaration leaves under its own key when no particular handler runs. */
  function DeclaredValue(h: Helpers, theme: bool, d: Declaration): Value {
    Rewritten(theme, ValueOf(h, d))
  }

  /**
    A declaration whose property has no particular handler (or whose value is
    a themed reference) overwrites whatever the earlier declarations stored
    under its key and changes nothing else.
   */
  lemma LaterDeclarationOverwrites(h: Helpers, theme: bool, ds: seq<Declaration>, d: Declaration)
    requires IsDeclaration(d) && !ConsultsParticular(h, theme, d)
    ensures StyleOf(h, theme, ds + [d]) == StyleOf(h, theme, ds)[KeyOf(h, d) := DeclaredValue(h, theme, d)]
  {
    assert (ds + [d])[..|ds|] == ds;
  }

  /**
    With a theme, a `var(--…)` value is stored as its rewrite and the
    particular table is not consulted, even when it has a handler.
   */
  lemma ThemedReferenceSkipsParticular(h: Helpers, ds: seq<Declaration>, d: Declaration)
    requires IsDeclaration(d) && IsVarReference(StripQuotes(d.value))
    ensures StyleOf(h, true, ds + [d])
      == StyleOf(h, true, ds)[KeyOf(h, d) := Str(CssVariableValue(StripQuotes(d.value)))]
  {
    assert ValueOf(h, d) == Str(StripQuotes(d.value));
    LaterDeclarationOverwrites(h, true, ds, d);
  }

  /** Without a theme, a `var(--…)` value is stored verbatim when no handler claims the key. */
  lemma UnthemedReferenceKeptVerbatim(h: Helpers, ds: seq<Declaration>, d: Declaration)
    requires IsDeclaration(d) && IsVarReference(StripQuotes(d.value)) && KeyOf(h, d) !in h.particular
    ensures StyleOf(h, false, ds + [d]) == StyleOf(h, false, ds)[KeyOf(h, d) := Str(StripQuotes(d.value))]
  {
    LaterDeclarationOverwrites(h, false, ds, d);
  }

  /** Without a theme a `var(--…)` value is not special: a handler for its key still runs. */
  lemma UnthemedReferenceReachesParticular(h: Helpers, d: Declaration)
    requires IsDeclaration(d) && KeyOf(h, d) in h.particular
    ensures ConsultsParticular(h, false, d)
  {
  }

  /**
    `var(--brand-color)` is stored as `var(--brand-color)` without a theme and
    as `var(brandColor)` with one.
   */
  lemma BrandColorDeclaration(h: Helpers, ds: seq<Declaration>, d: Declaration)
    requires IsDeclaration(d) && d.value == "var(--brand-color)" && KeyOf(h, d) !in h.particular
    ensures StyleOf(h, false, ds + [d])[KeyOf(h, d)] == Str("var(--brand-color)")
    ensures StyleOf(h, true, ds + [d])[KeyOf(h, d)] == Str("var(brandColor)")
  {
    var value := d.value;
    assert forall i :: 0 <= i < |value| ==> !IsQuoteChar(value[i]);
    assert StripQuotes(value) == value;
    BrandColorIsVarReference(value);
    ThemeRewriteExample(value);
    UnthemedReferenceKeptVerbatim(h, ds, d);
    ThemedReferenceSkipsParticular(h, ds, d);
  }

  /**
    A particular handler's keys are merged; when it flags `isDeleted` the
    original key is removed first and the flag itself is not merged.
   */
  lemma ParticularHandlerMerged(h: Helpers, theme: bool, ds: seq<Declaration>, d: Declaration)
    requires IsDeclaration(d) && ConsultsParticular(h, theme, d)
    ensures var key, v := KeyOf(h, d), ValueOf(h, d);
      var result := h.particular[key](v);
      var before := StyleOf(h, theme, ds);
      var after := StyleOf(h, theme, ds + [d]);
      && (IsDeleted(result) ==>
            after.Keys == (before.Keys - {key}) + (result.Keys - {"isDeleted"}))
      && (!IsDeleted(result) ==> after.Keys == before.Keys + {key} + result.Keys)
      && (forall k :: k in result && k != "isDeleted" ==> after[k] == result[k])
      && (forall k :: k in before && k !in result && k != key ==> after[k] == before[k])
      && (!IsDeleted(result) && key !in result ==> after[key] == v)
  {
    assert (ds + [d])[..|ds|] == ds;
  }

  /** The declaration nodes of a list, in order. */
  function OnlyDeclarations(ds: seq<Declaration>): (r: seq<Declaration>)
    ensures forall i :: 0 <= i < |r| ==> IsDeclaration(r[i])
    ensures forall i :: 0 <= i < |ds| && IsDeclaration(ds[i]) ==> ds[i] in r
    ensures forall x :: x in r ==> x in ds
    ensures |r| <= |ds|
    decreases |ds|
  {
    if ds == [] then []
    else
      var init, last := ds[..|ds| - 1], ds[|ds| - 1];
      var r := OnlyDeclarations(init) + (if IsDeclaration(last) then [last] else []);
      assert forall i :: 0 <= i < |ds| - 1 ==> ds[i] == init[i];
      r
  }

  /** Filtering keeps the order: the declarations of two runs of nodes follow each other. */
  lemma {:induction false} OnlyDeclarationsAppend(a: seq<Declaration>, b: seq<Declaration>)
    ensures OnlyDeclarations(a + b) == OnlyDeclarations(a) + OnlyDeclarations(b)
    decreases |b|
  {
    if b == [] {
      assert a + b == a;
    } else {
      var init, last := b[..|b| - 1], b[|b| - 1];
      assert (a + b)[..|a + b| - 1] == a + init;
      assert (a + b)[|a + b| - 1] == last;
      OnlyDeclarationsAppend(a, init);
      AppendAssociative(OnlyDeclarations(a), OnlyDeclarations(init),
                        if IsDeclaration(last) then [last] else []);
    }
  }

  /** A single node is kept exactly when it is a declaration. */
  lemma OnlyDeclarationsSingle(d: Declaration)
    ensures OnlyDeclarations([d]) == if IsDeclaration(d) then [d] else []
  {
    assert [d][..0] == [];
  }

  /** Nodes that are not declarations (comments) do not affect the style. */
  lemma {:induction false} OtherNodesIgnored(h: Helpers, theme: bool, ds: seq<Declaration>)
    ensures StyleOf(h, theme, OnlyDeclarations(ds)) == StyleOf(h, theme, ds)
    decreases |ds|
  {
    if ds != [] {
      var init, last := ds[..|ds| - 1], ds[|ds| - 1];
      OtherNodesIgnored(h, theme, init);
      var kept := OnlyDeclarations(init);
      if IsDeclaration(last) {
        assert (kept + [last])[..|kept|] == kept;
      } else {
        assert kept + [] == kept;
      }
    }
  }

  /** The keys one node may add: its own key and its handler's keys. */
  function KeysOf(h: Helpers, d: Declaration): set<string> {
    if !IsDeclaration(d) then {} else StoreKeys(h, KeyOf(h, d), ValueOf(h, d))
  }

  /** The keys the nodes of a list may add. */
  function AllKeysOf(h: Helpers, ds: seq<Declaration>): set<string>
    decreases |ds|
  {
    if ds == [] then {} else AllKeysOf(h, ds[..|ds| - 1]) + KeysOf(h, ds[|ds| - 1])
  }

  /**
    Without particular handlers the keys of the style are exactly the
    camel-cased properties of the declaration nodes.
   */
  lemma {:induction false} StyleKeysWithoutParticular(h: Helpers, theme: bool, ds: seq<Declaration>)
    requires h.particular == map[]
    ensures StyleOf(h, theme, ds).Keys == AllKeysOf(h, ds)
    ensures forall k :: k in StyleOf(h, theme, ds) <==>
      exists i :: 0 <= i < |ds| && IsDeclaration(ds[i]) && KeyOf(h, ds[i]) == k
    decreases |ds|
  {
    if ds != [] {
      var init := ds[..|ds| - 1];
      StyleKeysWithoutParticular(h, theme, init);
      forall k ensures k in StyleOf(h, theme, ds) <==>
        exists i :: 0 <= i < |ds| && IsDeclaration(ds[i]) && KeyOf(h, ds[i]) == k
      {
        if k in StyleOf(h, theme, ds) && k !in StyleOf(h, theme, init) {
          assert IsDeclaration(ds[|ds| - 1]) && KeyOf(h, ds[|ds| - 1]) == k;
        }
        if exists i :: 0 <= i < |ds| && IsDeclaration(ds[i]) && KeyOf(h, ds[i]) == k {
          var i :| 0 <= i < |ds| && IsDeclaration(ds[i]) && KeyOf(h, ds[i]) == k;
          if i < |ds| - 1 {
            assert init[i] == ds[i];
          }
        }
      }
    }
  }
}

=== FILE: wrappers.dfy ===
/** Failure-carrying wrappers shared by both loaders. */
module Wrappers {

  /** A value that may be absent: JavaScript's `undefined` / `null`. */
  datatype Option<+T> = None | Some(value: T) {
    function GetOr(default: T): T {
      match this
      case Some(v) => v
      case None => default
    }
  }

  /** The outcome of a step that may throw. */
  datatype Result<+T, +E> = Success(value: T) | Failure(error: E)
}
